=== FILE: README.md ===
# omni-fs-mcp backend layer in Dafny

omni-fs-mcp is an MCP server that exposes file tools over named storage
backends. This project models its core:

- the backend configuration record and its checks (`BackendConfig`,
  `_validate`);
- the `BackendManager` registry: register, look up, list, set the default,
  remove, check health, statistics;
- the `DAL` driver: built from a URL, with a lazily created storage operator
  and one forwarding method per file operation;
- the file tools of the server (`list_files`, `read_file`, `write_file`,
  `copy_file`, `rename_file`, `create_dir`, `stat_file`) and the loop that
  registers the backends listed in a configuration file.

Layout:

- `wrappers.dfy`: `Option` and `Result`.
- `seqs.dfy`: removing an element from an insertion-ordered list of names.
- `url.dfy`: the parts of Python's `urllib.parse` the code relies on:
  `urlparse`/`urlsplit`, `parse_qs` and `unquote`.
- `config.dfy`: `BackendConfig` and the checks of `_validate`.
- `dal.dfy`: class `Dal`. The external storage library is replaced by a small
  store: a map of files, a list of entry paths, and a flag saying whether the
  storage answers. A ghost log records every forwarded call.
- `registry.dfy`: the registry as a value (`RegistryState`), with one
  function per operation, its invariant `Inv`, and the lemmas proving that
  every operation keeps `Inv`.
- `manager.dfy`: class `BackendManager`. Its dictionaries are fields updated
  in place, and each method is proved to move `Model()` exactly as the
  matching `Registry` function does.
- `server.dfy`: the file tools and the configuration loader, as methods over
  a `BackendManager`. Pure functions (`MutationTarget`, `CopyPlan`,
  `LoadAll`) say what each tool decides.

Environment inputs are parameters:

- `Backing` says what storage a URL reaches and whether it answers. This
  decides the connection probe of `register_backend` and every driver call.
- The configuration file's `backends` list arrives already parsed, as a
  sequence of `ConfigRecord`s.

`BackendManager.Valid()` ties the class to its registry value. A second
predicate, `Registry.AllValid`, says that every stored config passed
`_validate`. The constructor establishes it, and every method that changes
the configs keeps it. The file tools require both, as every manager built
through these methods satisfies them.

`urlsplit` lower-cases the URL scheme, and the model does the same.

## Model

| member | source | states |
|---|---|---|
| Url.SplitUrl | src/omni_fs_mcp/dal.py:41 | The scheme `urlparse` reports is empty or a lower-case RFC 3986 scheme. The query never holds a `#`. |
| Url.SchemePrefix | src/omni_fs_mcp/dal.py:41 | A URL that starts with an RFC 3986 scheme and `:` has that scheme, lower-cased. |
| Url.SchemeAndQuery | src/omni_fs_mcp/dal.py:41-42 | For a URL `scheme:pre?q` without `#`, the query is the text after the first `?`, whatever the network location and path. |
| Url.NoBracketsParses | src/omni_fs_mcp/backend_manager.py:45 | A URL without square brackets always parses. |
| Url.UrlParse | src/omni_fs_mcp/backend_manager.py:45 | Leaving aside the NFKC check (see "## Left out"), `urlparse` fails exactly when the network location has one square bracket without the other, or has both and the bracketed host is rejected. One bracket alone gives `InvalidIPv6Url`. On success its scheme is the URL's scheme. |
| Url.BracketedHostError | src/omni_fs_mcp/backend_manager.py:45 | A bracketed host is accepted exactly when it is a valid IPvFuture literal (a host starting with `v`) or an address `ipaddress.IPv6Address` accepts. |
| Url.IPv4IsNotIPv6 | src/omni_fs_mcp/backend_manager.py:45 | No string is both an IPv4 and an IPv6 address, so a bracketed IPv4 address is always refused. |
| Url.BracketedHostOf | src/omni_fs_mcp/backend_manager.py:45 | The host checked in `[h]` is `h`. |
| Url.ColonlessHostRejected | src/omni_fs_mcp/backend_manager.py:45 | A bracketed host with no colon that does not start with `v` is refused. |
| Url.BracketedNameRejected | src/omni_fs_mcp/backend_manager.py:45 | A URL whose network location is such a bracketed name, as in `s3://[bucket]/x`, fails to parse, so `_validate` rejects it. |
| Url.CompressedAddress | src/omni_fs_mcp/backend_manager.py:45 | `::x` for a hextet `x` is an IPv6 address. |
| Url.LoopbackHostAccepted | src/omni_fs_mcp/backend_manager.py:45 | The bracketed loopback address `::1` is accepted. |
| Url.SplitOn | src/omni_fs_mcp/dal.py:42 | `str.split` round-trips: joining the parts with the separator gives the input back. No part contains the separator. |
| Url.ParseQsl | src/omni_fs_mcp/dal.py:42 | Blank values are dropped: every decoded pair has a non-empty value. |
| Url.UnquoteNoPercent | src/omni_fs_mcp/dal.py:42 | Text without `%` decodes to itself. |
| Url.FieldPairPlain | src/omni_fs_mcp/dal.py:42 | A field `name=value` that needs no decoding gives the pair (name, value). |
| Url.SplitJoin | src/omni_fs_mcp/dal.py:42 | Splitting joined parts that do not hold the separator gives the parts back. |
| Url.ParseQslRoundTrip | src/omni_fs_mcp/dal.py:42 | `parse_qsl` reads back every list of pairs without `&`, `=`, `%` or `+` from its `k=v&…` encoding, in order. |
| Url.PlainQueryOptions | src/omni_fs_mcp/dal.py:41-43 | The options of a URL whose query encodes such pairs are the first value of each name. |
| Url.MemoryUrlWithQuery | tests/test_dal.py:35-41 | `memory:///?param1=value1&param2=value2` parses, has the scheme `memory`, and gives exactly the options `param1 = value1` and `param2 = value2`. |
| Url.GroupCollectsValues | src/omni_fs_mcp/dal.py:42 | `parse_qs` maps a key exactly when some pair carries it, to all of that key's values in order of appearance. |
| Url.FirstValueWins | src/omni_fs_mcp/dal.py:43 | `val[0]` keeps the value of the first pair with that key. |
| Url.FirstValuesKeys | src/omni_fs_mcp/dal.py:43 | A key is an option exactly when some pair carries it. |
| Url.QueryOptions | src/omni_fs_mcp/dal.py:41-43 | Every option value is non-empty. |
| Url.NoQueryNoOptions | src/omni_fs_mcp/dal.py:41-43 | A URL without `?` has an empty query and yields no options. |
| BackendConfigs.NewConfig | src/omni_fs_mcp/backend_manager.py:14-54 | Construction succeeds exactly for a name of letters, digits, `_` and `-` plus a non-empty URL that `urlparse` accepts and that has a scheme. Each failing check gives its own error, in the code's order. On success the fields are stored unchanged and the scheme is well-formed. |
| BackendConfigs.NameRun | src/omni_fs_mcp/backend_manager.py:36 | The greedy `[a-zA-Z0-9_-]+` consumes name characters only and stops at the first other character. |
| BackendConfigs.ValidName | src/omni_fs_mcp/backend_manager.py:36-39 | The corrected name check: a non-empty name made only of letters, digits, `_` and `-`. |
| BackendConfigs.NameMatchAsWritten | src/omni_fs_mcp/backend_manager.py:36 | The pattern as Python evaluates it: a maximal run of name characters, then the end or one final newline. |
| BackendConfigs.NameMatchAsWrittenIff | src/omni_fs_mcp/backend_manager.py:36 | The pattern as Python evaluates it accepts exactly the valid names, and the valid names followed by one newline. |
| BackendConfigs.TrailingNewlineAccepted | src/omni_fs_mcp/backend_manager.py:36 | `"a\n"` passes the pattern as written but is not a valid name. |
| DataAccess.EntriesUnder | src/omni_fs_mcp/dal.py:53-70 | A listing returns only stored entries that start with the requested path, never more entries than are stored. |
| DataAccess.Operator.constructor | src/omni_fs_mcp/dal.py:25 | The operator is made with the driver's scheme and options. |
| DataAccess.Dal.constructor | src/omni_fs_mcp/dal.py:9-13 | The schema and options are stored unchanged, and no operator exists yet. |
| DataAccess.Dal.FromUrl | src/omni_fs_mcp/dal.py:29-51 | Fails exactly when `urlparse` fails. The schema is the URL's scheme and the options are the first value of each query key. The `fs` branch and the other branch build the same driver. |
| DataAccess.Dal.Op | src/omni_fs_mcp/dal.py:15-27 | The first use creates the operator from the schema and options. Every later use returns that same instance. |
| DataAccess.Dal.List | src/omni_fs_mcp/dal.py:53-70 | Returns the entries under the path, or fails when the storage does not answer. The store is unchanged and the operator is kept. |
| DataAccess.Dal.Read | src/omni_fs_mcp/dal.py:92-109 | Returns the stored bytes. Fails as unreachable, or as not found for a missing file. The store is unchanged. |
| DataAccess.Dal.Stat | src/omni_fs_mcp/dal.py:111-128 | A file's metadata is its length. A listed path that is not a file is a directory. Anything else is not found. |
| DataAccess.Dal.Copy | src/omni_fs_mcp/dal.py:130-145 | On success `dst` holds `src`'s old bytes and is listed. On failure the store is unchanged. |
| DataAccess.Dal.Write | src/omni_fs_mcp/dal.py:147-162 | On success the path holds the data and is listed. On failure the store is unchanged. |
| DataAccess.Dal.Rename | src/omni_fs_mcp/dal.py:164-179 | On success `src` is gone and `dst` holds its bytes, in the file map and in the listing. On failure the store is unchanged. |
| DataAccess.Dal.CreateDir | src/omni_fs_mcp/dal.py:181-195 | The path becomes listed and no file changes. |
| DataAccess.Dal.Exists | src/omni_fs_mcp/dal.py:197-214 | True exactly when the path is a file or a listed entry. |
| DataAccess.Dal.Delete | src/omni_fs_mcp/dal.py:216-232 | On success the path leaves both the file map and the listing. |
| Seqs.Without | src/omni_fs_mcp/backend_manager.py:221 | Deleting a key from the dict order keeps exactly the other names. |
| Seqs.WithoutAt | src/omni_fs_mcp/backend_manager.py:221 | In an order without duplicates, deleting the name at position `k` leaves the names before it and after it, in their order. |
| Registry.EmptyInv | src/omni_fs_mcp/backend_manager.py:60-64 | The empty manager satisfies the registry invariant. |
| Registry.Insert | src/omni_fs_mcp/backend_manager.py:104-111 | The config and a true health flag are stored under the name. A new name is appended to the order; a re-registered name keeps its place. The name becomes the default when asked to, or when there was no default. |
| Registry.InsertKeepsInv | src/omni_fs_mcp/backend_manager.py:104-111 | Filing a backend keeps the invariant. |
| Registry.MarkDown | src/omni_fs_mcp/backend_manager.py:122-124 | A failed registration only records the name as unhealthy. |
| Registry.MarkDownKeepsInv | src/omni_fs_mcp/backend_manager.py:122-124 | Recording a failure keeps the invariant. |
| Registry.Register | src/omni_fs_mcp/backend_manager.py:66-127 | Succeeds exactly when the config is valid and the backend answers or is not probed. An invalid config changes nothing. A failed probe marks the name down and raises a connection error. Success files the backend. |
| Registry.RegisterKeepsInv | src/omni_fs_mcp/backend_manager.py:66-127 | Every outcome of a registration keeps the invariant. |
| Registry.Lookup | src/omni_fs_mcp/backend_manager.py:139-163 | `get_backend(None)` gives the default, or fails when there is none. A given name must be registered, else the error lists the available names. |
| Registry.ConfigOf | src/omni_fs_mcp/backend_manager.py:165-169 | Returns the stored config exactly when the name has one, else the not-found error. |
| Registry.SetDefault | src/omni_fs_mcp/backend_manager.py:193-200 | Succeeds exactly for a registered name and changes only the default. |
| Registry.SetDefaultKeepsInv | src/omni_fs_mcp/backend_manager.py:193-200 | Setting the default keeps the invariant. |
| Registry.FirstName | src/omni_fs_mcp/backend_manager.py:224 | `next(iter(keys), None)`: nothing for an empty registry, else the first name in insertion order. |
| Registry.Delete | src/omni_fs_mcp/backend_manager.py:220-228 | The name leaves the order, the configs and the health flags. A removed default is replaced by the first remaining name. |
| Registry.DeleteAt | src/omni_fs_mcp/backend_manager.py:221-228 | Deleting the name at position `k` closes the gap in the order. A deleted default passes to the first name registered, or to the second when the default was the first; with no name left there is no default. |
| Registry.DeleteKeepsInv | src/omni_fs_mcp/backend_manager.py:220-228 | Deleting keeps the invariant; in particular a non-empty registry still has a default. |
| Registry.Remove | src/omni_fs_mcp/backend_manager.py:202-232 | An unknown name fails. Removing the default without `force` fails. Otherwise the name is deleted. |
| Registry.RegisterKeepsValid | src/omni_fs_mcp/backend_manager.py:104 | Only configs that passed `_validate` are ever stored. |
| Registry.DeleteKeepsValid | src/omni_fs_mcp/backend_manager.py:220-223 | Removing a backend keeps every remaining config valid. |
| Registry.RemoveUndoesRegister | src/omni_fs_mcp/backend_manager.py:66-232 | Registering a fresh name, not as default, then removing it restores the registry exactly. |
| Registry.DeleteUndoesInsert | src/omni_fs_mcp/backend_manager.py:104-111 | Deleting a freshly filed name restores the registry. |
| Registry.InsertDeleteOrder | src/omni_fs_mcp/backend_manager.py:104-111 | Filing then deleting a fresh name restores the insertion order. |
| Registry.InsertDeleteDefault | src/omni_fs_mcp/backend_manager.py:108-111 | Filing a fresh name that is not asked to be default, then deleting it, restores the default. |
| Registry.RegisterThenLookup | src/omni_fs_mcp/backend_manager.py:66-169 | After a successful registration, `get_backend(name)` finds the name and `get_backend_config(name)` returns the new config. |
| Registry.HealthTargets | src/omni_fs_mcp/backend_manager.py:246 | A non-empty name is checked alone; no name or an empty name checks every registered name, in order. |
| Registry.ProbeResultsSpec | src/omni_fs_mcp/backend_manager.py:249-262 | Every target gets a result, and the result is true exactly when the target is registered and its backend answers. |
| Registry.ProbeHealthSpec | src/omni_fs_mcp/backend_manager.py:249-262 | Health flags are updated for the registered targets only; every other flag is kept. |
| Registry.CheckHealth | src/omni_fs_mcp/backend_manager.py:234-264 | `check_backend_health` changes only health flags. It reports on exactly the chosen names, with true exactly for registered names that answer, and records those results for registered names only. |
| Registry.CheckHealthKeepsInv | src/omni_fs_mcp/backend_manager.py:234-264 | A health check keeps the invariant. |
| Registry.Listing | src/omni_fs_mcp/backend_manager.py:171-191 | One row per registered name, in insertion order, with its URL, description, read-only flag, default mark and health flag. |
| Registry.ListingMarksDefaultOnce | src/omni_fs_mcp/backend_manager.py:187 | Exactly one row is marked default when there is a default, and none when there is none. |
| Registry.StatsOf | src/omni_fs_mcp/backend_manager.py:266-280 | The total is the number of backends. The healthy count is the number of registered names whose flag is true; a flag left by a failed registration is false and not counted. The read-only count is the number of read-only registered backends. Both never exceed the total. The schemes are exactly those of the registered URLs. |
| Registry.StatsCounts | src/omni_fs_mcp/backend_manager.py:266-276 | Under the invariant, the health flags and configs the statistics count are those of the registered names, and there are as many configs as names. |
| Registry.StatsSchemesWellFormed | src/omni_fs_mcp/backend_manager.py:276-278 | Every reported scheme is a well-formed, non-empty scheme. |
| Manager.BackendManager.constructor | src/omni_fs_mcp/backend_manager.py:60-64 | A new manager is empty, satisfies the invariant, and holds only valid configs (none). |
| Manager.BackendManager.RegisterBackend | src/omni_fs_mcp/backend_manager.py:66-127 | The manager moves exactly as `Register` says. On success a fresh driver is filed under the name, built from the URL's scheme and options. On failure no driver changes. Every stored config stays valid. |
| Manager.BackendManager.Connect | src/omni_fs_mcp/backend_manager.py:99-127 | The `try` block: a failed probe only marks the name down. Otherwise the config, a fresh driver and a true flag are filed. |
| Manager.BackendManager.File | src/omni_fs_mcp/backend_manager.py:104-111 | The stores of the success path move as `Insert` says. |
| Manager.BackendManager.GetBackend | src/omni_fs_mcp/backend_manager.py:139-163 | Returns the driver filed under `Lookup`'s name, or `Lookup`'s error. |
| Manager.BackendManager.GetBackendConfig | src/omni_fs_mcp/backend_manager.py:165-169 | Returns `ConfigOf`'s result, whose config carries the name it was asked for. |
| Manager.BackendManager.ListBackends | src/omni_fs_mcp/backend_manager.py:171-191 | The loop builds exactly `Listing`. |
| Manager.BackendManager.SetDefaultBackend | src/omni_fs_mcp/backend_manager.py:193-200 | Moves as `SetDefault` says and leaves the drivers alone. |
| Manager.BackendManager.RemoveBackend | src/omni_fs_mcp/backend_manager.py:202-232 | Moves as `Remove` says. On success the driver leaves the driver map; on failure nothing changes. Every remaining config stays valid. |
| Manager.BackendManager.Drop | src/omni_fs_mcp/backend_manager.py:220-228 | The deletions move the registry as `Delete` says. |
| Manager.BackendManager.CheckBackendHealth | src/omni_fs_mcp/backend_manager.py:234-264 | Returns and records exactly what `CheckHealth` says for the drivers' reachability. No stored file changes. The log of each probed registered backend gains exactly one listing of "/", and every other driver's log stays as it was. |
| Manager.BackendManager.ProbeEach | src/omni_fs_mcp/backend_manager.py:246-262 | The probing loop produces `ProbeResults` and `ProbeHealth` of its targets. Each driver's log gains one listing of "/" for each time its name is a target. |
| Manager.ProbeLog | src/omni_fs_mcp/backend_manager.py:246-262 | The calls a probe loop makes on one driver; none when its name is not a target. |
| Manager.ProbeLogOnce | src/omni_fs_mcp/backend_manager.py:244-262 | A name that is a target once is probed exactly once. |
| Manager.TargetsDistinct | src/omni_fs_mcp/backend_manager.py:244 | The names `check_backend_health` probes are distinct. |
| Manager.BackendManager.GetBackendStats | src/omni_fs_mcp/backend_manager.py:266-280 | Returns `StatsOf` the current registry. |
| Server.MutationTarget | src/omni_fs_mcp/mcp_server.py:230-237 | A changing tool acts only on the backend `get_backend` returned, and inherits its lookup errors. |
| Server.NoEmptyName | src/omni_fs_mcp/backend_manager.py:33-34 | No registered name is empty. |
| Server.ResolveNamesLookup | src/omni_fs_mcp/mcp_server.py:169 | `backend or default` names exactly the backend `get_backend` returned. So listed entries are tagged with the backend they came from, and the read-only check looks at that backend. |
| Server.MutationTargetSpec | src/omni_fs_mcp/mcp_server.py:230-237 | `write_file`, `rename_file` and `create_dir` go through exactly when the backend is found and is not read-only. A read-only backend is refused by name. |
| Server.CopyPlan | src/omni_fs_mcp/mcp_server.py:271-293 | A native copy uses a registered backend. A read-and-write copy uses the backends `get_backend` finds for the names as given. |
| Server.CopyNeverWritesReadOnly | src/omni_fs_mcp/mcp_server.py:278-284 | A copy never writes to a read-only backend, and a read-only destination is refused by name. |
| Server.CopyPlanSpec | src/omni_fs_mcp/mcp_server.py:286-293 | A read-and-write copy always joins two different backends. A copy between found backends with a writable destination is always planned, writing to that destination. |
| Server.WritableClient | src/omni_fs_mcp/mcp_server.py:230-237 | Returns the driver of `MutationTarget`'s backend, or its error as a backend error. |
| Server.ListFiles | src/omni_fs_mcp/mcp_server.py:148-181 | Lists the entries of the looked-up driver, in order. Each entry is tagged with the name of the backend that was listed. Lookup errors are backend errors and driver failures are operation failures. Nothing stored changes. |
| Server.ReadFile | src/omni_fs_mcp/mcp_server.py:184-210 | Returns the looked-up driver's bytes for the path, or the lookup or driver error. Nothing stored changes. |
| Server.StatFile | src/omni_fs_mcp/mcp_server.py:384-409 | Returns the looked-up driver's metadata for the path, or the lookup or driver error. Nothing stored changes. |
| Server.WriteFile | src/omni_fs_mcp/mcp_server.py:213-248 | A backend that is not found gives the lookup error, and a read-only backend gives the read-only error; neither changes any driver. Otherwise only the looked-up driver's store changes: it makes one `write` call and holds the content at the path, listed, or the storage failure is reported. The other drivers' stores are unchanged; they are separate in the model (see "## Left out"). |
| Server.RenameFile | src/omni_fs_mcp/mcp_server.py:311-346 | A backend that is not found, or a read-only one, is refused by its error and no driver changes. Otherwise the looked-up driver alone makes one `rename` call: the file and its listed entry move to `dst`, or the storage failure is reported and nothing moves. |
| Server.CreateDir | src/omni_fs_mcp/mcp_server.py:349-381 | A backend that is not found, or a read-only one, is refused by its error and no driver changes. Otherwise the looked-up driver alone makes one `create_dir` call and the path becomes listed, with no file changed. |
| Server.CopyClientsOf | src/omni_fs_mcp/mcp_server.py:271-293 | The drivers the copy uses are those `CopyPlan` names, and its errors are `CopyPlan`'s. |
| Server.CopyFile | src/omni_fs_mcp/mcp_server.py:251-308 | A read-only destination is refused by name and no driver changes. A copy never writes to a read-only backend. A native copy makes one `copy` call on its backend, which then holds and lists `dst`. A copy across backends makes one `read` on the source, whose own store stays unchanged, and, only when that read succeeded, one `write` of those bytes on the destination, which then holds and lists `dst`. No other driver's store changes. Stores are separate in the model, so this does not cover two names reaching the same storage (see "## Left out"). |
| Server.RequestOf | src/omni_fs_mcp/mcp_server.py:419-428 | A record's name and URL, and each optional key it has, pass to the registration unchanged. Absent keys default to an empty description, writable, timeout 30, 3 retries, not default, probe on. |
| Server.LoadStepRegisters | src/omni_fs_mcp/mcp_server.py:419-431 | Whether a record registers does not depend on the records before it. |
| Server.SchemeOnlyUrlParts | src/omni_fs_mcp/dal.py:41 | `urlparse("fs:")` gives the scheme `fs` and nothing else. |
| Server.SchemeOnlyUrlAccepted | src/omni_fs_mcp/backend_manager.py:41-47 | A URL made of a scheme alone passes the URL checks. |
| Server.AcceptedRecordRegisters | src/omni_fs_mcp/mcp_server.py:419-431 | A record with a valid name, an accepted URL and no probe registers. |
| Server.PlainRecordRegisters | src/omni_fs_mcp/mcp_server.py:419-431 | A record with a plain name, a scheme-only URL and no probe registers. |
| Server.NamelessRecordStopsLoad | src/omni_fs_mcp/mcp_server.py:418-433 | As written, a record without "name" ends the load, so a later record that would register never does; skipping it registers that record. |
| Server.LoadAll | src/omni_fs_mcp/mcp_server.py:418-433 | The corrected loop: each record in file order is registered when it has a name and a URL, and skipped otherwise; a failure never stops the load. |
| Server.LoadAllAsWritten | src/omni_fs_mcp/mcp_server.py:418-433 | The loop as written stops early exactly when some record has no name. |
| Server.AsWrittenAgreesWhenNamed | src/omni_fs_mcp/mcp_server.py:418-433 | When every record has a name, the loop as written and the corrected loop give the same registry. |
| Server.LoadAllKeepsInv | src/omni_fs_mcp/mcp_server.py:418-433 | Loading a configuration keeps the registry invariant. |
| Server.LoadAllKeepsValid | src/omni_fs_mcp/mcp_server.py:418-433 | Loading only ever stores configs that passed `_validate`. |
| Server.LoadAllKeepsNames | src/omni_fs_mcp/mcp_server.py:418-433 | Loading never unregisters a name. |
| Server.RegisteredSurvives | src/omni_fs_mcp/mcp_server.py:418-433 | A name registered by any record stays registered until the end of the load. |
| Server.LoadAllRegistersEach | src/omni_fs_mcp/mcp_server.py:418-433 | Every record that registers on its own is registered at the end, whatever the other records do. |
| Server.LoadConfigs | src/omni_fs_mcp/mcp_server.py:412-433 | The loop leaves the manager valid, with only valid configs, and in state `LoadAll`: each record is registered in file order, and failures are skipped. |

## Left out

- `DAL.open` (src/omni_fs_mcp/dal.py:72-90) is not modelled. It hands out a file object of the external storage library, and no tool uses it.
- The external storage library (opendal) is replaced by a store of files and entry paths plus a reachability flag:
  - the flag is fixed when the driver is built (`Dal.reachable` is a constant): a backend that answered once answers forever, so no modelled backend can go down after registration, and one that did not answer never recovers;
  - listing returns the stored entries that start with the path;
  - errors are reduced to "does not answer" and "not found";
  - the operator cannot fail to build from its options;
  - each driver holds its own copy of the store it was built over. In the code two registered names can reach the same storage: two `fs:` backends, or one bucket under a read-only name and a writable name. There a write, rename or copy through one name shows through the other, and a bridge copy `a:/x` to `b:/y` changes what `a` lists. The model does not capture this sharing.
- Server.WriteFile, Server.CopyFile: "no other driver changes" and "the source stays unchanged" are facts about the model's separate stores. They do not hold for backends whose URLs reach the same storage.
- UTF-8 handling is not modelled. `write_file` encodes its content and `read_file` decodes it; the tools here take and return bytes. The `UnicodeDecodeError` that `read_file` would report as a backend error is therefore absent.
- Url.UrlParse: the NFKC check of non-ASCII network locations is not modelled. `urlsplit` raises ValueError when the NFKC form of such a network location contains one of `/?#@:`, for example `s3://a\u2100b/`. `_validate`, `register_backend` and `DAL.from_url` then fail, but `UrlParse`, `NewConfig` and `FromUrl` accept the URL.
- Port parsing is not modelled. `urlparse` does not check the port; only reading `.port` would, and the code never does.
- Url.UrlParse: the bracketed-host check follows Python 3.11.4 and 3.12.0, which check the text between the first `[` and the next `]`. Earlier releases have no such check. Later security releases also reject text before the `[` or between the `]` and the port. The model does not capture either version difference.
- `unquote` decodes percent escapes of ASCII bytes only. Escapes of bytes 0x80 and above stay as written instead of being UTF-8 decoded.
- The `isinstance` checks of `_validate` are not modelled: names and URLs are strings by type.
- `timeout` and `retry_attempts` are stored and never used, in the code as in the model.
- All logging is left out. That includes the warning for an unsupported scheme, which `BackendConfigs.SchemeWarning` only describes.
- `return False` at the end of `register_backend` is not reached. Without a probe, nothing in the modelled `try` block can fail.
- The server's transport, CLI and `main` are not modelled.
- The registry tools of the server are thin wrappers around `BackendManager` and are not modelled separately.
- Reading and parsing the configuration file is not modelled, nor are its `FileNotFoundError` and `JSONDecodeError`. The loader starts from the parsed `backends` list, where each element has the keys of a JSON object.
- Registry.RemoveUndoesRegister: proved only for a name that was not registered or recorded before and is not made the default. Re-registering a name overwrites its old config, so no removal can restore it.
- Registry.StatsOf: `backend_schemes` is a set. The code returns it as a list built from a set, whose order Python does not define.
- Concurrency is not modelled: every tool call runs to completion before the next one.

## Findings

| source | as written | input that shows it | evidently intended | confidence | as-written member | corrected member |
|---|---|---|---|---|---|---|
| src/omni_fs_mcp/backend_manager.py:36 | `re.match(r"^[a-zA-Z0-9_-]+$", name)`: `$` also matches just before a final newline | the name `"a\n"` is accepted | names made only of letters, digits, `_` and `-` (`re.fullmatch` or `\Z`) | high, not executed | BackendConfigs.NameMatchAsWritten, BackendConfigs.TrailingNewlineAccepted | BackendConfigs.ValidName, BackendConfigs.NewConfig |
| src/omni_fs_mcp/mcp_server.py:418-433 | a record without `"name"` raises `KeyError`; the handler indexes `backend_config['name']` again, so the error escapes and the load stops | `backends: [{"url": "fs:"}, {"name": "b", "url": "fs:", "validate_connection": false}]`: backend `b` is never registered | log the bad record and go on with the next one, as for every other failure | high, not executed | Server.LoadAllAsWritten, Server.NamelessRecordStopsLoad | Server.LoadAll, Server.LoadConfigs, Server.LoadAllRegistersEach |

=== FILE: config.dfy ===
/** A backend's configuration record and the checks made when it is built
    (`BackendConfig.__init__` and `BackendConfig._validate`). */
module BackendConfigs {
  import opened Wrappers
  import Url

  datatype BackendConfig = BackendConfig(
    name: string,
    url: string,
    description: string,
    readonly: bool,
    timeout: int,        // stored, never used
    retryAttempts: int)  // stored, never used

  /** The ValueErrors construction can raise, in the order they are checked. */
  datatype ConfigError =
    | EmptyName
    | InvalidNameChars
    | EmptyUrl
    | MalformedUrl(cause: Url.UrlError)
    | InvalidUrlFormat

  /** Schemes accepted without a warning. */
  const SupportedSchemes: set<string> := {"fs", "s3", "webdav", "memory", "http", "https", "ftp"}

  predicate IsNameChar(c: char) {
    Url.IsAsciiLetter(c) || Url.IsDigit(c) || c == '_' || c == '-'
  }

  /** `[a-zA-Z0-9_-]+` matched against the whole name. */
  predicate ValidName(s: string) {
    |s| > 0 && forall i :: 0 <= i < |s| ==> IsNameChar(s[i])
  }

  /** Length of the longest prefix of `s` made of name characters: what the
      greedy `[a-zA-Z0-9_-]+` consumes. */
  function NameRun(s: string): (k: nat)
    ensures k <= |s|
    ensures forall i :: 0 <= i < k ==> IsNameChar(s[i])
    ensures k < |s| ==> !IsNameChar(s[k])
  {
    if s != [] && IsNameChar(s[0]) then 1 + NameRun(s[1..]) else 0
  }

  /** `re.match(r"^[a-zA-Z0-9_-]+$", s)` as Python evaluates it: after the
      greedy run of name characters, `$` matches at the end of the string or
      just before a final newline. */
  predicate NameMatchAsWritten(s: string) {
    var k := NameRun(s);
    k >= 1 && (k == |s| || (k == |s| - 1 && s[k] == '\n'))
  }

  /** The pattern as written accepts exactly the valid names, and the valid
      names followed by one newline. */
  lemma NameMatchAsWrittenIff(s: string)
    ensures NameMatchAsWritten(s) <==>
      ValidName(s) || (|s| >= 2 && s[|s| - 1] == '\n' && ValidName(s[..|s| - 1]))
  {
    var k := NameRun(s);
    if |s| >= 2 && s[|s| - 1] == '\n' && ValidName(s[..|s| - 1]) {
      assert forall i :: 0 <= i < |s| - 1 ==> s[i] == s[..|s| - 1][i];
      assert k == |s| - 1;
    }
    if ValidName(s) {
      assert k == |s|;
    }
  }

  /** The counterexample: a name ending in a newline passes the pattern. */
  lemma TrailingNewlineAccepted()
    ensures NameMatchAsWritten("a\n") && !ValidName("a\n")
  {
    NameMatchAsWrittenIff("a\n");
    assert "a\n"[..1] == "a";
  }

  /** The URL checks of `_validate`: non-empty, accepted by `urlparse`, with a scheme. */
  predicate UrlAccepted(url: string) {
    url != "" && Url.UrlParse(url).Success? && Url.SchemeOf(url) != ""
  }

  /** Building a BackendConfig: a name of letters, digits, `_` and `-`, then a
      non-empty URL that `urlparse` accepts and that has a scheme. An unknown
      scheme is only logged (`SchemeWarning`), so success does not depend on
      `SupportedSchemes`. */
  function NewConfig(name: string, url: string, description: string, readonly: bool,
                     timeout: int, retryAttempts: int): (r: Result<BackendConfig, ConfigError>)
    ensures r.Success? <==> ValidName(name) && UrlAccepted(url)
    ensures r.Success? ==> r.value == BackendConfig(name, url, description, readonly, timeout, retryAttempts)
    ensures r.Success? ==> Url.IsRfc3986Scheme(Url.SchemeOf(url))
    ensures r.Success? ==> IsValidConfig(r.value)
    ensures r.Success? ==> forall c :: c in r.value.name ==> c != '\n' && IsNameChar(c)
    ensures name == "" ==> r == Failure(EmptyName)
    ensures name != "" && !ValidName(name) ==> r == Failure(InvalidNameChars)
    ensures ValidName(name) && url == "" ==> r == Failure(EmptyUrl)
    ensures ValidName(name) && url != "" && Url.UrlParse(url).Failure? ==>
      r == Failure(MalformedUrl(Url.UrlParse(url).error))
    ensures ValidName(name) && url != "" && Url.UrlParse(url).Success? && Url.SchemeOf(url) == "" ==>
      r == Failure(InvalidUrlFormat)
  {
    if name == "" then Failure(EmptyName)
    else if !ValidName(name) then Failure(InvalidNameChars)
    else if url == "" then Failure(EmptyUrl)
    else
      match Url.UrlParse(url)
      case Failure(e) => Failure(MalformedUrl(e))
      case Success(parts) =>
        if parts.scheme == "" then Failure(InvalidUrlFormat)
        else Success(BackendConfig(name, url, description, readonly, timeout, retryAttempts))
  }

  /** The warning `_validate` logs for a scheme outside the supported set. */
  predicate SchemeWarning(cfg: BackendConfig) {
    Url.SchemeOf(cfg.url) !in SupportedSchemes
  }

  /** A config whose name and URL pass every check of `_validate`. */
  predicate IsValidConfig(cfg: BackendConfig) {
    ValidName(cfg.name) && UrlAccepted(cfg.url)
  }
}

=== FILE: dal.dfy ===
/** The data-access layer (`DAL`): one storage driver instance, built from a
    scheme and an option map, forwarding every file operation to a lazily
    created storage operator. The storage system behind the operator is
    external; it is modelled by a store of files and entry paths, a flag
    saying whether it answers at all, and a ghost log of every call made. */
module DataAccess {
  import opened Wrappers
  import Url
  import Seqs

  type Path = string

  type Bytes = seq<bv8>

  /** One call forwarded to the storage operator. */
  datatype Call =
    | List(path: Path)
    | Read(path: Path)
    | Write(path: Path, data: Bytes)
    | Stat(path: Path)
    | Copy(src: Path, dst: Path)
    | Rename(src: Path, dst: Path)
    | CreateDir(path: Path)
    | Exists(path: Path)
    | Delete(path: Path)

  datatype DriverError = Unreachable | NotFound(path: Path)

  datatype Metadata = Metadata(isDir: bool, contentLength: nat)

  /** The external storage a URL reaches: whether it answers, the files it
      holds and the paths it lists, in listing order. */
  datatype Backing = Backing(reachable: bool, files: map<Path, Bytes>, entries: seq<Path>)

  /** The entries listed under `path`: those that start with it, in order. */
  function EntriesUnder(entries: seq<Path>, path: Path): (r: seq<Path>)
    ensures |r| <= |entries|
    ensures forall i :: 0 <= i < |r| ==> path <= r[i] && r[i] in entries
  {
    if entries == [] then []
    else (if path <= entries[0] then [entries[0]] else []) + EntriesUnder(entries[1..], path)
  }

  function AddEntry(entries: seq<Path>, p: Path): seq<Path> {
    if p in entries then entries else entries + [p]
  }

  /** The handle the external storage library hands out for a scheme and options. */
  class Operator {
    const scheme: string
    const options: map<string, string>

    constructor (scheme: string, options: map<string, string>)
      ensures this.scheme == scheme && this.options == options
    {
      this.scheme := scheme;
      this.options := options;
    }
  }

  class Dal {
    const schema: string
    const options: map<string, string>
    const reachable: bool
    var op: Operator?
    var files: map<Path, Bytes>
    var entries: seq<Path>
    ghost var log: seq<Call>

    /** `DAL(schema, options={})`: stores both unchanged and creates no operator yet. */
    constructor (schema: string, backing: Backing, options: map<string, string> := map[])
      ensures this.schema == schema && this.options == options
      ensures op == null && log == []
      ensures reachable == backing.reachable && files == backing.files && entries == backing.entries
    {
      this.schema := schema;
      this.options := options;
      this.reachable := backing.reachable;
      this.files := backing.files;
      this.entries := backing.entries;
      this.op := null;
      this.log := [];
    }

    /** `DAL.from_url`: the scheme of the URL and the first value of each
        query key. Python's `fs` and non-`fs` branches build the same object. */
    static method FromUrl(url: string, backing: Backing) returns (r: Result<Dal, Url.UrlError>)
      ensures r.Success? <==> Url.UrlParse(url).Success?
      ensures r.Failure? ==> r.error == Url.UrlParse(url).error
      ensures r.Success? ==> fresh(r.value) && r.value.op == null && r.value.log == []
      ensures r.Success? ==> r.value.schema == Url.SchemeOf(url) && r.value.options == Url.QueryOptions(url)
      ensures r.Success? ==> r.value.reachable == backing.reachable && r.value.files == backing.files
      ensures r.Success? ==> r.value.entries == backing.entries
    {
      match Url.UrlParse(url)
      case Failure(e) =>
        r := Failure(e);
      case Success(u) =>
        var options := Url.QueryOptions(url);
        var schema := u.scheme;
        var d: Dal;
        if schema == "fs" {
          d := new Dal(schema, backing, options := options);
        } else {
          d := new Dal(schema, backing, options := options);
        }
        r := Success(d);
    }

    /** The lazy `op` property: the operator is created on first use and
        the same instance is returned on every later use. */
    method Op() returns (o: Operator)
      modifies this`op
      ensures o == op
      ensures old(op) != null ==> o == old(op)
      ensures old(op) == null ==> fresh(o) && o.scheme == schema && o.options == options
    {
      if op == null {
        op := new Operator(schema, options);
      }
      o := op;
    }

    /** Every forwarded call creates the operator if needed and keeps it. */
    twostate predicate OperatorKept()
      reads this
    {
      op != null && (old(op) != null ==> op == old(op))
    }

    method List(path: Path) returns (r: Result<seq<Path>, DriverError>)
      modifies this
      ensures OperatorKept() && log == old(log) + [Call.List(path)]
      ensures files == old(files) && entries == old(entries)
      ensures r == if reachable then Success(EntriesUnder(entries, path)) else Failure(Unreachable)
    {
      var _ := Op();
      log := log + [Call.List(path)];
      if !reachable {
        return Failure(Unreachable);
      }
      r := Success(EntriesUnder(entries, path));
    }

    method Read(path: Path) returns (r: Result<Bytes, DriverError>)
      modifies this
      ensures OperatorKept() && log == old(log) + [Call.Read(path)]
      ensures files == old(files) && entries == old(entries)
      ensures r == if !reachable then Failure(Unreachable)
                   else if path !in files then Failure(NotFound(path))
                   else Success(files[path])
    {
      var _ := Op();
      log := log + [Call.Read(path)];
      if !reachable {
        return Failure(Unreachable);
      }
      if path !in files {
        return Failure(NotFound(path));
      }
      r := Success(files[path]);
    }

    method Stat(path: Path) returns (r: Result<Metadata, DriverError>)
      modifies this
      ensures OperatorKept() && log == old(log) + [Call.Stat(path)]
      ensures files == old(files) && entries == old(entries)
      ensures r == if !reachable then Failure(Unreachable)
                   else if path in files then Success(Metadata(false, |files[path]|))
                   else if path in entries then Success(Metadata(true, 0))
                   else Failure(NotFound(path))
    {
      var _ := Op();
      log := log + [Call.Stat(path)];
      if !reachable {
        return Failure(Unreachable);
      }
      if path in files {
        r := Success(Metadata(false, |files[path]|));
      } else if path in entries {
        r := Success(Metadata(true, 0));
      } else {
        r := Failure(NotFound(path));
      }
    }

    method Write(path: Path, data: Bytes) returns (r: Result<(), DriverError>)
      modifies this
      ensures OperatorKept() && log == old(log) + [Call.Write(path, data)]
      ensures r == if reachable then Success(()) else Failure(Unreachable)
      ensures r.Success? ==> files == old(files)[path := data] && entries == AddEntry(old(entries), path)
      ensures r.Failure? ==> files == old(files) && entries == old(entries)
    {
      var _ := Op();
      log := log + [Call.Write(path, data)];
      if !reachable {
        return Failure(Unreachable);
      }
      files := files[path := data];
      entries := AddEntry(entries, path);
      r := Success(());
    }

    method Copy(src: Path, dst: Path) returns (r: Result<(), DriverError>)
      modifies this
      ensures OperatorKept() && log == old(log) + [Call.Copy(src, dst)]
      ensures r == if !reachable then Failure(Unreachable)
                   else if src !in old(files) then Failure(NotFound(src))
                   else Success(())
      ensures r.Success? ==> files == old(files)[dst := old(files)[src]] && entries == AddEntry(old(entries), dst)
      ensures r.Failure? ==> files == old(files) && entries == old(entries)
    {
      var _ := Op();
      log := log + [Call.Copy(src, dst)];
      if !reachable {
        return Failure(Unreachable);
      }
      if src !in files {
        return Failure(NotFound(src));
      }
      files := files[dst := files[src]];
      entries := AddEntry(entries, dst);
      r := Success(());
    }

    method Rename(src: Path, dst: Path) returns (r: Result<(), DriverError>)
      modifies this
      ensures OperatorKept() && log == old(log) + [Call.Rename(src, dst)]
      ensures r == if !reachable then Failure(Unreachable)
                   else if src !in old(files) then Failure(NotFound(src))
                   else Success(())
      ensures r.Success? ==> files == (old(files) - {src})[dst := old(files)[src]]
      ensures r.Success? ==> entries == AddEntry(Seqs.Without(old(entries), src), dst)
      ensures r.Failure? ==> files == old(files) && entries == old(entries)
    {
      var _ := Op();
      log := log + [Call.Rename(src, dst)];
      if !reachable {
        return Failure(Unreachable);
      }
      if src !in files {
        return Failure(NotFound(src));
      }
      files := (files - {src})[dst := files[src]];
      entries := AddEntry(Seqs.Without(entries, src), dst);
      r := Success(());
    }

    method CreateDir(path: Path) returns (r: Result<(), DriverError>)
      modifies this
      ensures OperatorKept() && log == old(log) + [Call.CreateDir(path)]
      ensures r == if reachable then Success(()) else Failure(Unreachable)
      ensures files == old(files)
      ensures entries == if r.Success? then AddEntry(old(entries), path) else old(entries)
    {
      var _ := Op();
      log := log + [Call.CreateDir(path)];
      if !reachable {
        return Failure(Unreachable);
      }
      entries := AddEntry(entries, path);
      r := Success(());
    }

    method Exists(path: Path) returns (r: Result<bool, DriverError>)
      modifies this
      ensures OperatorKept() && log == old(log) + [Call.Exists(path)]
      ensures files == old(files) && entries == old(entries)
      ensures r == if reachable then Success(path in files || path in entries) else Failure(Unreachable)
    {
      var _ := Op();
      log := log + [Call.Exists(path)];
      if !reachable {
        return Failure(Unreachable);
      }
      r := Success(path in files || path in entries);
    }

    method Delete(path: Path) returns (r: Result<(), DriverError>)
      modifies this
      ensures OperatorKept() && log == old(log) + [Call.Delete(path)]
      ensures r == if reachable then Success(()) else Failure(Unreachable)
      ensures r.Success? ==> files == old(files) - {path} && entries == Seqs.Without(old(entries), path)
      ensures r.Failure? ==> files == old(files) && entries == old(entries)
    {
      var _ := Op();
      log := log + [Call.Delete(path)];
      if !reachable {
        return Failure(Unreachable);
      }
      files := files - {path};
      entries := Seqs.Without(entries, path);
      r := Success(());
    }
  }
}

=== FILE: manager.dfy ===
/** `BackendManager`: the registry of named drivers the server routes to.
    Its dictionaries are fields updated in place; `Model()` reads them as a
    `Registry.RegistryState`, and every method is proved to move that state
    exactly as the matching function of `Registry` says. */
module Manager {
  import opened Wrappers
  import Url
  import Seqs
  import opened BackendConfigs
  import opened DataAccess
  import opened Registry

  class BackendManager {
    var backends: map<string, Dal>
    var configs: map<string, BackendConfig>
    var health: map<string, bool>
    var defaultBackend: Option<string>
    /** The keys of `backends` in insertion order, as a Python dict iterates them. */
    var order: seq<string>

    ghost function Model(): RegistryState
      reads this
    {
      RegistryState(order, configs, health, defaultBackend)
    }

    /** The registry invariant, one driver per registered name, and no
        driver shared between two names. */
    ghost predicate Valid()
      reads this
    {
      && Inv(Model())
      && backends.Keys == configs.Keys
      && Injective(backends)
    }

    constructor ()
      ensures Valid() && Model() == Empty && backends == map[] && AllValid(configs)
    {
      backends := map[];
      configs := map[];
      health := map[];
      defaultBackend := None;
      order := [];
    }

    /** `register_backend`, with the storage the URL reaches given as `backing`.
        The config is checked first; the driver is then built from the URL and,
        when `validateConnection` is set, probed by listing "/". */
    method RegisterBackend(name: string, url: string, description: string, readonly: bool,
                           timeout: int, retryAttempts: int, setAsDefault: bool,
                           validateConnection: bool, backing: Backing)
      returns (r: Result<(), RegisterError>)
      requires Valid()
      modifies this
      ensures Valid()
      ensures (Model(), r) == Register(old(Model()),
        Registration(name, url, description, readonly, timeout, retryAttempts, setAsDefault, validateConnection),
        backing.reachable)
      ensures r.Failure? ==> backends == old(backends)
      ensures r.Success? ==> fresh(backends[name]) && backends == old(backends)[name := backends[name]]
      ensures r.Success? ==> backends[name].schema == Url.SchemeOf(url) && backends[name].options == Url.QueryOptions(url)
      ensures r.Success? ==> backends[name].files == backing.files && backends[name].entries == backing.entries
      ensures AllValid(old(configs)) ==> AllValid(configs)
    {
      ghost var req := Registration(name, url, description, readonly, timeout, retryAttempts, setAsDefault, validateConnection);
      if AllValid(configs) {
        RegisterKeepsValid(Model(), req, backing.reachable);
      }
      var c := NewConfig(name, url, description, readonly, timeout, retryAttempts);
      assert BuildConfig(req) == c;
      if c.Failure? {
        r := Failure(InvalidConfig(c.error));
        assert Register(old(Model()), req, backing.reachable) == (Model(), r);
        return;
      }
      ghost var s0 := Model();
      r := Connect(c.value, setAsDefault, validateConnection, backing);
      if r.Success? {
        assert Register(s0, req, backing.reachable) == (Insert(s0, c.value, setAsDefault), Success(()));
      } else {
        assert Register(s0, req, backing.reachable) == (MarkDown(s0, name), r);
      }
    }

    /** The `try` block of `register_backend` for a config that passed
        `_validate`: build the driver from the URL, probe it when asked to,
        and file everything on success; a failed probe records the name as
        unhealthy and changes nothing else. */
    method Connect(cfg: BackendConfig, setAsDefault: bool, validateConnection: bool, backing: Backing)
      returns (r: Result<(), RegisterError>)
      requires Valid() && UrlAccepted(cfg.url)
      modifies this
      ensures Valid()
      ensures r == if backing.reachable || !validateConnection then Success(()) else Failure(ConnectionFailed(cfg.name))
      ensures r.Success? ==> Model() == Insert(old(Model()), cfg, setAsDefault)
      ensures r.Success? ==> cfg.name in backends && fresh(backends[cfg.name])
      ensures r.Success? ==> backends == old(backends)[cfg.name := backends[cfg.name]]
      ensures r.Success? ==> backends[cfg.name].schema == Url.SchemeOf(cfg.url)
      ensures r.Success? ==> backends[cfg.name].options == Url.QueryOptions(cfg.url)
      ensures r.Success? ==> backends[cfg.name].files == backing.files && backends[cfg.name].entries == backing.entries
      ensures r.Failure? ==> backends == old(backends)
      ensures r.Failure? ==> Model() == MarkDown(old(Model()), cfg.name)
    {
      ghost var s0 := Model();
      var made := Dal.FromUrl(cfg.url, backing);
      assert made.Success?;
      var d := made.value;
      if validateConnection {
        var probe := d.List("/");
        if probe.Failure? {
          MarkUnhealthy(cfg.name);
          return Failure(ConnectionFailed(cfg.name));
        }
      }
      ghost var b0 := backends;
      File(cfg, d, setAsDefault);
      InsertKeepsInv(s0, cfg, setAsDefault);
      InjectiveUpdate(b0, cfg.name, d);
      r := Success(());
    }

    /** The failure path of `register_backend`'s probe: the name is recorded
        as unhealthy and nothing else changes. */
    method MarkUnhealthy(name: string)
      requires Valid()
      modifies this`health
      ensures Valid() && Model() == MarkDown(old(Model()), name)
    {
      MarkDownKeepsInv(Model(), name);
      health := health[name := false];
    }

    /** The success path of `register_backend`: the config, the driver and a
        true health flag are stored under the name, which becomes the default
        when asked to or when there is none. */
    method File(cfg: BackendConfig, d: Dal, setAsDefault: bool)
      requires backends.Keys == configs.Keys
      modifies this
      ensures Model() == Insert(old(Model()), cfg, setAsDefault)
      ensures backends == old(backends)[cfg.name := d] && backends.Keys == configs.Keys
    {
      configs := configs[cfg.name := cfg];
      backends := backends[cfg.name := d];
      health := health[cfg.name := true];
      if cfg.name !in order {
        order := order + [cfg.name];
      }
      if setAsDefault || defaultBackend.None? {
        defaultBackend := Some(cfg.name);
      }
    }

    /** `get_backend`: the named driver, or the default one when no name is given. */
    method GetBackend(name: Option<string>) returns (r: Result<Dal, RegistryError>)
      requires Valid()
      ensures r.Success? <==> Lookup(Model(), name).Success?
      ensures r.Success? ==> r.value == backends[Lookup(Model(), name).value]
      ensures r.Failure? ==> r.error == Lookup(Model(), name).error
    {
      var resolved := if name.None? then defaultBackend else name;
      if resolved.None? {
        return Failure(NoDefaultBackend);
      }
      if resolved.value !in backends {
        return Failure(BackendNotFound(resolved.value, order));
      }
      r := Success(backends[resolved.value]);
    }

    /** `get_backend_config`. */
    method GetBackendConfig(name: string) returns (r: Result<BackendConfig, RegistryError>)
      requires Valid()
      ensures r == ConfigOf(Model(), name)
      ensures r.Success? ==> r.value.name == name
    {
      if name !in configs {
        return Failure(ConfigNotFound(name));
      }
      assert Registered(Model(), name);
      r := Success(configs[name]);
    }

    /** `list_backends`: one row per registered name, in insertion order. */
    method ListBackends() returns (rows: seq<BackendInfo>)
      requires Valid()
      ensures rows == Listing(Model())
    {
      var s := RegistryState(order, configs, health, defaultBackend);
      rows := [];
      for i := 0 to |order|
        invariant rows == Listing(s)[..i]
      {
        rows := rows + [InfoOf(s, order[i])];
      }
    }

    /** `set_default_backend`. */
    method SetDefaultBackend(name: string) returns (r: Result<(), RegistryError>)
      requires Valid()
      modifies this
      ensures Valid() && backends == old(backends)
      ensures r.Success? <==> SetDefault(old(Model()), name).Success?
      ensures r.Success? ==> Model() == SetDefault(old(Model()), name).value
      ensures r.Failure? ==> Model() == old(Model()) && r.error == SetDefault(old(Model()), name).error
    {
      if name !in backends {
        return Failure(UnknownBackend(name));
      }
      SetDefaultKeepsInv(Model(), name);
      defaultBackend := Some(name);
      r := Success(());
    }

    /** `remove_backend`: the name leaves all three dictionaries; a removed
        default is replaced by the first remaining name. */
    method RemoveBackend(name: string, force: bool) returns (r: Result<(), RegistryError>)
      requires Valid()
      modifies this
      ensures Valid()
      ensures r.Success? <==> Remove(old(Model()), name, force).Success?
      ensures r.Success? ==> Model() == Remove(old(Model()), name, force).value && backends == old(backends) - {name}
      ensures r.Failure? ==> Model() == old(Model()) && backends == old(backends)
      ensures r.Failure? ==> r.error == Remove(old(Model()), name, force).error
      ensures AllValid(old(configs)) ==> AllValid(configs)
    {
      if name !in backends {
        return Failure(UnknownBackend(name));
      }
      if defaultBackend == Some(name) && !force {
        return Failure(CannotRemoveDefault(name));
      }
      ghost var oldBackends := backends;
      DeleteKeepsInv(Model(), name);
      if AllValid(configs) {
        DeleteKeepsValid(Model(), name);
      }
      Drop(name);
      assert backends.Keys == configs.Keys == oldBackends.Keys - {name};
      InjectiveRemove(oldBackends, name);
      r := Success(());
    }

    /** The deletions of `remove_backend` once its checks have passed. */
    method Drop(name: string)
      modifies this
      ensures Model() == Registry.Delete(old(Model()), name)
      ensures backends == old(backends) - {name}
    {
      backends := backends - {name};
      configs := configs - {name};
      health := health - {name};
      order := Seqs.Without(order, name);
      if defaultBackend == Some(name) {
        defaultBackend := FirstName(order);
      }
    }

    /** Which registered names answer a probe. */
    ghost function Reachability(): (reach: map<string, bool>)
      reads this
      ensures reach.Keys == backends.Keys
    {
      map n | n in backends :: backends[n].reachable
    }

    /** `check_backend_health`: probe the named backend, or every backend when
        no (or an empty) name is given, by listing "/". A name that is not
        registered reports false and is not recorded. */
    method CheckBackendHealth(name: Option<string>) returns (results: map<string, bool>)
      requires Valid()
      modifies this, backends.Values
      ensures Valid() && backends == old(backends)
      ensures (Model(), results) == CheckHealth(old(Model()), old(Reachability()), name)
      ensures forall n :: n in backends ==>
        backends[n].files == old(backends[n].files) && backends[n].entries == old(backends[n].entries)
      ensures forall n :: n in backends ==>
        backends[n].log == old(backends[n].log) + (if n in HealthTargets(name, old(order)) then [Call.List("/")] else [])
    {
      ghost var before := Model();
      CheckHealthKeepsInv(before, Reachability(), name);
      var targets := HealthTargets(name, order);
      TargetsDistinct(name, order);
      results := ProbeEach(targets);
      forall n | n in backends
        ensures ProbeLog(targets, n) == if n in targets then [Call.List("/")] else []
      {
        if n in targets {
          ProbeLogOnce(targets, n);
        }
      }
      assert Model() == CheckHealth(before, old(Reachability()), name).0;
    }

    /** The loop of `check_backend_health` over the names to probe. */
    method ProbeEach(targets: seq<string>) returns (results: map<string, bool>)
      requires Injective(backends)
      modifies this`health, backends.Values
      ensures results == ProbeResults(targets, Reachability())
      ensures health == ProbeHealth(old(health), targets, Reachability())
      ensures forall n :: n in backends ==>
        backends[n].files == old(backends[n].files) && backends[n].entries == old(backends[n].entries)
      ensures forall n :: n in backends ==> backends[n].log == old(backends[n].log) + ProbeLog(targets, n)
    {
      ghost var reach := Reachability();
      ghost var logs := map n | n in backends :: backends[n].log;
      results := map[];
      for i := 0 to |targets|
        invariant results == ProbeResults(targets[..i], reach)
        invariant health == ProbeHealth(old(health), targets[..i], reach)
        invariant forall n :: n in backends ==>
          && backends[n].files == old(backends[n].files) && backends[n].entries == old(backends[n].entries)
          && backends[n].log == logs[n] + ProbeLog(targets[..i], n)
      {
        var t := targets[i];
        assert targets[..i + 1] == targets[..i] + [t];
        var ok := ProbeOne(t, targets[..i], reach, old(health), logs);
        results := results[t := ok];
      }
      assert targets[..|targets|] == targets;
    }

    /** One pass of that loop, after the names in `done` were probed: list
        "/" on the driver filed under `t`, when there is one, and record
        whether it answered. */
    method ProbeOne(t: string, ghost done: seq<string>, ghost reach: map<string, bool>,
                    ghost health0: map<string, bool>, ghost logs: map<string, seq<Call>>)
      returns (ok: bool)
      requires Injective(backends) && reach == Reachability()
      requires health == ProbeHealth(health0, done, reach)
      requires forall n :: n in backends ==> n in logs && backends[n].log == logs[n] + ProbeLog(done, n)
      modifies this`health, backends.Values
      ensures ok == (t in reach && reach[t])
      ensures health == ProbeHealth(health0, done + [t], reach)
      ensures forall n :: n in backends ==>
        backends[n].files == old(backends[n].files) && backends[n].entries == old(backends[n].entries)
      ensures forall n :: n in backends ==> backends[n].log == logs[n] + ProbeLog(done + [t], n)
    {
      assert (done + [t])[..|done|] == done;
      if t !in backends {
        return false;
      }
      var probe := backends[t].List("/");
      ok := probe.Success?;
      health := health[t := ok];
    }

    /** `get_backend_stats`. */
    method GetBackendStats() returns (st: Stats)
      requires Valid()
      ensures st == StatsOf(Model())
    {
      st := StatsOf(RegistryState(order, configs, health, defaultBackend));
    }
  }

  /** No driver is filed under two names. */
  ghost predicate Injective(drivers: map<string, Dal>) {
    forall m, n :: m in drivers && n in drivers && m != n ==> drivers[m] != drivers[n]
  }

  lemma InjectiveUpdate(drivers: map<string, Dal>, name: string, d: Dal)
    requires Injective(drivers) && forall n :: n in drivers ==> drivers[n] != d
    ensures Injective(drivers[name := d])
  {
  }

  lemma InjectiveRemove(drivers: map<string, Dal>, name: string)
    requires Injective(drivers)
    ensures Injective(drivers - {name})
  {
  }

  /** The calls a probe loop over `targets` makes on the driver filed under
      `n`: one listing of "/" for each time `n` is a target, and nothing
      when it is not one. */
  function ProbeLog(targets: seq<string>, n: string): (calls: seq<Call>)
    ensures n !in targets ==> calls == []
    decreases |targets|
  {
    if targets == [] then []
    else ProbeLog(targets[..|targets| - 1], n) + (if targets[|targets| - 1] == n then [Call.List("/")] else [])
  }

  /** A target that occurs once is probed once. */
  lemma {:induction false} ProbeLogOnce(targets: seq<string>, n: string)
    requires Seqs.NoDuplicates(targets) && n in targets
    ensures ProbeLog(targets, n) == [Call.List("/")]
    decreases |targets|
  {
    var k := |targets| - 1;
    var pre := targets[..k];
    if targets[k] == n {
      assert n !in pre by {
        forall i | 0 <= i < k ensures pre[i] != n {
          assert targets[i] != targets[k];
        }
      }
    } else {
      assert n in pre;
      assert Seqs.NoDuplicates(pre) by {
        forall i, j | 0 <= i < j < |pre| ensures pre[i] != pre[j] {
          assert targets[i] != targets[j];
        }
      }
      ProbeLogOnce(pre, n);
    }
  }

  /** `check_backend_health` names each backend at most once. */
  lemma TargetsDistinct(name: Option<string>, order: seq<string>)
    requires Seqs.NoDuplicates(order)
    ensures Seqs.NoDuplicates(HealthTargets(name, order))
  {
  }
}

=== FILE: registry.dfy ===
/** The backend registry as a value: the names in insertion order, the
    configuration and health flag kept for each name, and the default
    backend. The class `Manager.BackendManager` is proved to follow these
    functions step by step. */
module Registry {
  import opened Wrappers
  import Url
  import Seqs
  import opened BackendConfigs

  datatype RegistryState = RegistryState(
    order: seq<string>,                 // keys of `backends`, in dict order
    configs: map<string, BackendConfig>,
    health: map<string, bool>,
    defaultBackend: Option<string>)

  /** The ValueErrors raised by lookups and policy checks. */
  datatype RegistryError =
    | NoDefaultBackend
    | BackendNotFound(name: string, available: seq<string>)
    | UnknownBackend(name: string)
    | ConfigNotFound(name: string)
    | CannotRemoveDefault(name: string)
    | ReadOnlyBackend(name: string)

  datatype RegisterError = InvalidConfig(cause: ConfigError) | ConnectionFailed(name: string)

  /** The arguments of `register_backend`. */
  datatype Registration = Registration(
    name: string,
    url: string,
    description: string,
    readonly: bool,
    timeout: int,
    retryAttempts: int,
    setAsDefault: bool,
    validateConnection: bool)

  const Empty := RegistryState([], map[], map[], None)

  /** What every operation keeps: the ordered names are distinct, every name
      satisfies `Registered`, the default is absent or registered, and a
      non-empty registry always has a default. */
  ghost predicate Inv(s: RegistryState) {
    && Seqs.NoDuplicates(s.order)
    && (forall n :: Registered(s, n))
    && (s.defaultBackend.Some? ==> s.defaultBackend.value in s.configs)
    && (s.order != [] ==> s.defaultBackend.Some?)
  }

  /** A name is ordered exactly when it has a config, its config is filed
      under it, and it is reported healthy only when it is registered. */
  ghost predicate Registered(s: RegistryState, n: string) {
    && (n in s.configs <==> n in s.order)
    && (n in s.configs ==> s.configs[n].name == n)
    && (n in s.health && s.health[n] ==> n in s.configs)
  }

  /** The config filed under `n`, if there is one, passed `_validate`. */
  ghost predicate ValidEntry(configs: map<string, BackendConfig>, n: string) {
    n in configs ==> IsValidConfig(configs[n])
  }

  /** Every registered config passed `_validate`. */
  ghost predicate AllValid(configs: map<string, BackendConfig>) {
    forall n :: ValidEntry(configs, n)
  }

  /** The registry facts `Inv` keeps behind `Registered`, for every name at once. */
  lemma InvFacts(s: RegistryState)
    requires Inv(s)
    ensures forall n :: n in s.configs <==> n in s.order
    ensures forall n :: n in s.configs ==> s.configs[n].name == n
    ensures forall n :: n in s.health && s.health[n] ==> n in s.configs
  {
    forall n
      ensures (n in s.configs <==> n in s.order)
      ensures n in s.configs ==> s.configs[n].name == n
      ensures n in s.health && s.health[n] ==> n in s.configs
    {
      assert Registered(s, n);
    }
  }

  lemma EmptyInv()
    ensures Inv(Empty)
  {
  }

  /** The effect of a successful registration: the config is filed (a known
      name keeps its position, a new one goes last), its health is true, and
      it becomes the default when asked to or when there was none. */
  function Insert(s: RegistryState, cfg: BackendConfig, setAsDefault: bool): (r: RegistryState)
    ensures r.configs == s.configs[cfg.name := cfg] && r.health == s.health[cfg.name := true]
    ensures cfg.name in s.order ==> r.order == s.order
    ensures cfg.name !in s.order ==> r.order == s.order + [cfg.name]
    ensures setAsDefault || s.defaultBackend.None? ==> r.defaultBackend == Some(cfg.name)
    ensures !setAsDefault && s.defaultBackend.Some? ==> r.defaultBackend == s.defaultBackend
  {
    var order := if cfg.name in s.order then s.order else s.order + [cfg.name];
    RegistryState(
      order,
      s.configs[cfg.name := cfg],
      s.health[cfg.name := true],
      if setAsDefault || s.defaultBackend.None? then Some(cfg.name) else s.defaultBackend)
  }

  /** Filing a config keeps the invariant. */
  lemma {:induction false} InsertKeepsInv(s: RegistryState, cfg: BackendConfig, setAsDefault: bool)
    requires Inv(s)
    ensures Inv(Insert(s, cfg, setAsDefault))
  {
    var r := Insert(s, cfg, setAsDefault);
    forall n ensures Registered(r, n) {
      assert Registered(s, n);
    }
    if cfg.name !in s.order {
      forall i, j | 0 <= i < j < |r.order| ensures r.order[i] != r.order[j] {
        if j == |s.order| {
          assert r.order[i] == s.order[i];
        }
      }
    }
  }

  /** A name whose connection probe failed is recorded as unhealthy. */
  function MarkDown(s: RegistryState, name: string): (r: RegistryState)
    ensures r.order == s.order && r.configs == s.configs && r.defaultBackend == s.defaultBackend
    ensures name in r.health && !r.health[name]
    ensures forall n :: n != name ==> (n in r.health <==> n in s.health)
    ensures forall n :: n != name && n in s.health ==> r.health[n] == s.health[n]
  {
    s.(health := s.health[name := false])
  }

  /** Marking a name unhealthy keeps the invariant, registered or not. */
  lemma {:induction false} MarkDownKeepsInv(s: RegistryState, name: string)
    requires Inv(s)
    ensures Inv(MarkDown(s, name))
  {
    var r := MarkDown(s, name);
    forall n ensures Registered(r, n) {
      assert Registered(s, n);
    }
  }

  /** The config `register_backend` builds before anything else. */
  function BuildConfig(req: Registration): Result<BackendConfig, ConfigError> {
    NewConfig(req.name, req.url, req.description, req.readonly, req.timeout, req.retryAttempts)
  }

  /** `register_backend`, given whether the connection probe would succeed.
      An invalid config fails before anything changes; a failed probe only
      records the name as unhealthy. */
  function Register(s: RegistryState, req: Registration, reachable: bool): (res: (RegistryState, Result<(), RegisterError>))
    ensures res.1.Success? <==> BuildConfig(req).Success? && (reachable || !req.validateConnection)
    ensures BuildConfig(req).Failure? ==> res == (s, Failure(InvalidConfig(BuildConfig(req).error)))
    ensures BuildConfig(req).Success? && req.validateConnection && !reachable ==>
      res == (MarkDown(s, req.name), Failure(ConnectionFailed(req.name)))
    ensures res.1.Success? ==> res.0 == Insert(s, BuildConfig(req).value, req.setAsDefault)
  {
    match BuildConfig(req)
    case Failure(e) => (s, Failure(InvalidConfig(e)))
    case Success(cfg) =>
      if req.validateConnection && !reachable then
        (MarkDown(s, req.name), Failure(ConnectionFailed(req.name)))
      else
        (Insert(s, cfg, req.setAsDefault), Success(()))
  }

  /** Every outcome of a registration keeps the invariant. */
  lemma RegisterKeepsInv(s: RegistryState, req: Registration, reachable: bool)
    requires Inv(s)
    ensures Inv(Register(s, req, reachable).0)
  {
    if BuildConfig(req).Success? {
      InsertKeepsInv(s, BuildConfig(req).value, req.setAsDefault);
      MarkDownKeepsInv(s, req.name);
    }
  }

  /** `get_backend`'s choice of name: the requested one, or the default when
      none is given; the name must be registered. */
  function Lookup(s: RegistryState, name: Option<string>): (r: Result<string, RegistryError>)
    ensures name.None? && s.defaultBackend.None? ==> r == Failure(NoDefaultBackend)
    ensures r.Success? ==> r.value in s.configs
    ensures r.Success? && name.Some? ==> r.value == name.value
    ensures r.Success? && name.None? ==> s.defaultBackend == Some(r.value)
    ensures name.Some? && name.value !in s.configs ==> r == Failure(BackendNotFound(name.value, s.order))
    ensures Inv(s) && name.None? && s.defaultBackend.Some? ==> r == Success(s.defaultBackend.value)
  {
    var resolved := if name.None? then s.defaultBackend else name;
    if resolved.None? then Failure(NoDefaultBackend)
    else if resolved.value in s.configs then Success(resolved.value)
    else Failure(BackendNotFound(resolved.value, s.order))
  }

  /** `get_backend_config`. */
  function ConfigOf(s: RegistryState, name: string): (r: Result<BackendConfig, RegistryError>)
    ensures r.Success? <==> name in s.configs
    ensures r.Success? ==> r.value == s.configs[name]
    ensures r.Failure? ==> r.error == ConfigNotFound(name)
  {
    if name in s.configs then Success(s.configs[name]) else Failure(ConfigNotFound(name))
  }

  /** `set_default_backend`. */
  function SetDefault(s: RegistryState, name: string): (r: Result<RegistryState, RegistryError>)
    ensures r.Success? <==> name in s.configs
    ensures r.Failure? ==> r.error == UnknownBackend(name)
    ensures r.Success? ==> r.value == s.(defaultBackend := Some(name))
  {
    if name !in s.configs then Failure(UnknownBackend(name))
    else Success(s.(defaultBackend := Some(name)))
  }

  lemma {:induction false} SetDefaultKeepsInv(s: RegistryState, name: string)
    requires Inv(s)
    ensures SetDefault(s, name).Success? ==> Inv(SetDefault(s, name).value)
  {
    if SetDefault(s, name).Success? {
      var r := SetDefault(s, name).value;
      forall n ensures Registered(r, n) {
        assert Registered(s, n);
      }
    }
  }

  /** The first name left in insertion order, if any. */
  function FirstName(order: seq<string>): (r: Option<string>)
    ensures r.None? <==> order == []
    ensures r.Some? ==> r.value == order[0]
  {
    if order == [] then None else Some(order[0])
  }

  /** Deleting a name from all three dictionaries; a deleted default is
      replaced by the first remaining name in insertion order. */
  function Delete(s: RegistryState, name: string): (r: RegistryState)
    ensures r.order == Seqs.Without(s.order, name)
    ensures r.configs == s.configs - {name} && r.health == s.health - {name}
    ensures s.defaultBackend == Some(name) ==> r.defaultBackend == FirstName(r.order)
    ensures s.defaultBackend != Some(name) ==> r.defaultBackend == s.defaultBackend
  {
    var order := Seqs.Without(s.order, name);
    RegistryState(
      order,
      s.configs - {name},
      s.health - {name},
      if s.defaultBackend == Some(name) then FirstName(order) else s.defaultBackend)
  }

  /** Deleting the name at position `k` of the registration order closes the
      gap; a deleted default passes to the first name that remains, which is
      the second name when the default was the first. */
  lemma DeleteAt(s: RegistryState, name: string, k: int)
    requires Inv(s) && 0 <= k < |s.order| && s.order[k] == name
    ensures Delete(s, name).order == s.order[..k] + s.order[k + 1..]
    ensures s.defaultBackend == Some(name) ==>
      Delete(s, name).defaultBackend ==
        if |s.order| == 1 then None else if k == 0 then Some(s.order[1]) else Some(s.order[0])
  {
    Seqs.WithoutAt(s.order, name, k);
  }

  /** Deleting a name keeps the invariant: in particular a registry left
      non-empty still has a default. */
  lemma {:induction false} DeleteKeepsInv(s: RegistryState, name: string)
    requires Inv(s)
    ensures Inv(Delete(s, name))
  {
    var r := Delete(s, name);
    Seqs.WithoutKeepsNoDuplicates(s.order, name);
    forall n ensures Registered(r, n) {
      assert Registered(s, n);
    }
    if r.order != [] {
      assert r.order[0] in r.order;
      assert Registered(s, r.order[0]);
    }
  }

  /** `remove_backend`: an unknown name fails, the default needs `force`. */
  function Remove(s: RegistryState, name: string, force: bool): (r: Result<RegistryState, RegistryError>)
    ensures name !in s.configs ==> r == Failure(UnknownBackend(name))
    ensures name in s.configs && s.defaultBackend == Some(name) && !force ==> r == Failure(CannotRemoveDefault(name))
    ensures r.Success? <==> name in s.configs && (force || s.defaultBackend != Some(name))
    ensures r.Success? ==> r.value == Delete(s, name)
  {
    if name !in s.configs then Failure(UnknownBackend(name))
    else if s.defaultBackend == Some(name) && !force then Failure(CannotRemoveDefault(name))
    else Success(Delete(s, name))
  }

  /** Only configs that passed `_validate` ever enter the registry. */
  lemma {:induction false} RegisterKeepsValid(s: RegistryState, req: Registration, reachable: bool)
    requires AllValid(s.configs)
    ensures AllValid(Register(s, req, reachable).0.configs)
  {
    var r := Register(s, req, reachable).0;
    forall n ensures ValidEntry(r.configs, n) {
      assert ValidEntry(s.configs, n);
    }
  }

  lemma {:induction false} DeleteKeepsValid(s: RegistryState, name: string)
    requires AllValid(s.configs)
    ensures AllValid(Delete(s, name).configs)
  {
    var r := Delete(s, name);
    forall n ensures ValidEntry(r.configs, n) {
      assert ValidEntry(s.configs, n);
    }
  }

  /** A registration (not as default) followed by the removal of the same,
      previously unknown, name gives back the registry it started from; the
      removal needs `force` only when the registry was empty before. */
  lemma {:induction false} RemoveUndoesRegister(s: RegistryState, req: Registration, reachable: bool)
    requires Inv(s)
    requires req.name !in s.configs && req.name !in s.health
    requires Register(s, req, reachable).1.Success?
    requires !req.setAsDefault
    ensures s.defaultBackend.Some? ==> Remove(Register(s, req, reachable).0, req.name, false) == Success(s)
    ensures Remove(Register(s, req, reachable).0, req.name, true) == Success(s)
  {
    var cfg := BuildConfig(req).value;
    assert Register(s, req, reachable).0 == Insert(s, cfg, req.setAsDefault);
    DeleteUndoesInsert(s, cfg, req.setAsDefault);
  }

  lemma {:induction false} DeleteUndoesInsert(s: RegistryState, cfg: BackendConfig, setAsDefault: bool)
    requires Inv(s)
    requires cfg.name !in s.configs && cfg.name !in s.health
    requires !setAsDefault
    ensures Delete(Insert(s, cfg, setAsDefault), cfg.name) == s
  {
    InsertDeleteOrder(s, cfg);
    InsertDeleteDefault(s, cfg);
    UpdateThenRemove(s.configs, cfg.name, cfg);
    UpdateThenRemove(s.health, cfg.name, true);
  }

  lemma UpdateThenRemove<V>(m: map<string, V>, k: string, v: V)
    requires k !in m
    ensures m[k := v] - {k} == m
  {
  }

  lemma InsertDeleteOrder(s: RegistryState, cfg: BackendConfig)
    requires Inv(s) && cfg.name !in s.configs
    ensures Delete(Insert(s, cfg, false), cfg.name).order == s.order
  {
    assert Registered(s, cfg.name);
    WithoutAppend(s.order, cfg.name);
    Seqs.WithoutAbsent(s.order, cfg.name);
  }

  lemma InsertDeleteDefault(s: RegistryState, cfg: BackendConfig)
    requires Inv(s) && cfg.name !in s.configs
    ensures Delete(Insert(s, cfg, false), cfg.name).defaultBackend == s.defaultBackend
  {
    var r := Insert(s, cfg, false);
    if s.defaultBackend.None? {
      assert s.order == [];
      assert r.order == [cfg.name];
      assert Seqs.Without(r.order, cfg.name) == [];
    } else {
      assert s.defaultBackend.value != cfg.name;
    }
  }

  lemma {:induction false} WithoutAppend(xs: seq<string>, x: string)
    ensures Seqs.Without(xs + [x], x) == Seqs.Without(xs, x)
    decreases |xs|
  {
    if xs == [] {
      assert Seqs.Without([x], x) == [] + Seqs.Without([], x);
    } else {
      assert (xs + [x])[1..] == xs[1..] + [x];
      WithoutAppend(xs[1..], x);
    }
  }

  /** After a successful registration the name resolves to itself and its
      config is the one just built. */
  lemma RegisterThenLookup(s: RegistryState, req: Registration, reachable: bool)
    requires Inv(s)
    requires Register(s, req, reachable).1.Success?
    ensures Lookup(Register(s, req, reachable).0, Some(req.name)) == Success(req.name)
    ensures ConfigOf(Register(s, req, reachable).0, req.name)
      == Success(BackendConfig(req.name, req.url, req.description, req.readonly, req.timeout, req.retryAttempts))
  {
  }

  // ---------------------------------------------------------------------------
  // Health checks

  /** The names `check_backend_health` probes: the given name unless it is
      missing or empty, otherwise every registered name in order. */
  function HealthTargets(name: Option<string>, order: seq<string>): (r: seq<string>)
    ensures name.Some? && name.value != "" ==> r == [name.value]
    ensures name.None? || name.value == "" ==> r == order
  {
    if name.Some? && name.value != "" then [name.value] else order
  }

  /** The results of probing `targets` in turn, where `reach` says which
      registered names answer: a name without a driver reports false. */
  function ProbeResults(targets: seq<string>, reach: map<string, bool>): map<string, bool>
    decreases |targets|
  {
    if targets == [] then map[]
    else
      var t := targets[|targets| - 1];
      ProbeResults(targets[..|targets| - 1], reach)[t := t in reach && reach[t]]
  }

  /** The health flags after probing `targets` in turn: a probed registered
      name records its answer, every other flag is kept. */
  function ProbeHealth(health: map<string, bool>, targets: seq<string>, reach: map<string, bool>): map<string, bool>
    decreases |targets|
  {
    if targets == [] then health
    else
      var t := targets[|targets| - 1];
      var h := ProbeHealth(health, targets[..|targets| - 1], reach);
      if t in reach then h[t := reach[t]] else h
  }

  /** Every probed name has a result, which is true exactly when the name
      has a driver that answers. */
  lemma {:induction false} ProbeResultsSpec(targets: seq<string>, reach: map<string, bool>)
    ensures forall n :: n in ProbeResults(targets, reach) <==> n in targets
    ensures forall n :: n in ProbeResults(targets, reach) ==> (ProbeResults(targets, reach)[n] <==> n in reach && reach[n])
    decreases |targets|
  {
    if targets != [] {
      var prefix := targets[..|targets| - 1];
      ProbeResultsSpec(prefix, reach);
      assert targets == prefix + [targets[|targets| - 1]];
    }
  }

  /** A probed name with a driver records its answer; every other flag is kept. */
  lemma {:induction false} ProbeHealthSpec(health: map<string, bool>, targets: seq<string>, reach: map<string, bool>)
    ensures forall n :: n in ProbeHealth(health, targets, reach) <==> n in health || (n in targets && n in reach)
    ensures forall n :: n in ProbeHealth(health, targets, reach) ==>
      ProbeHealth(health, targets, reach)[n] == if n in targets && n in reach then reach[n] else health[n]
    decreases |targets|
  {
    if targets != [] {
      var prefix := targets[..|targets| - 1];
      ProbeHealthSpec(health, prefix, reach);
      assert targets == prefix + [targets[|targets| - 1]];
    }
  }

  /** One more probe extends both results. */
  lemma ProbeStep(health: map<string, bool>, targets: seq<string>, i: nat, reach: map<string, bool>)
    requires i < |targets|
    ensures ProbeResults(targets[..i + 1], reach)
      == ProbeResults(targets[..i], reach)[targets[i] := targets[i] in reach && reach[targets[i]]]
    ensures ProbeHealth(health, targets[..i + 1], reach)
      == if targets[i] in reach then ProbeHealth(health, targets[..i], reach)[targets[i] := reach[targets[i]]]
         else ProbeHealth(health, targets[..i], reach)
  {
    assert targets[..i + 1][..i] == targets[..i];
  }

  /** `check_backend_health` given which registered names answer: the new
      registry state and the reported results. */
  function CheckHealth(s: RegistryState, reach: map<string, bool>, name: Option<string>): (res: (RegistryState, map<string, bool>))
    requires reach.Keys == s.configs.Keys
    ensures res.0 == s.(health := res.0.health)
    ensures name.Some? && name.value != "" ==> res.1.Keys == {name.value}
    ensures name.None? || name.value == "" ==> res.1.Keys == set n | n in s.order
    ensures forall n :: n in res.1 ==> (res.1[n] <==> n in s.configs && reach[n])
    ensures forall n :: n in res.1 && n in s.configs ==> n in res.0.health && res.0.health[n] == res.1[n]
    ensures forall n :: n in res.0.health && !(n in res.1 && n in s.configs) ==> n in s.health && res.0.health[n] == s.health[n]
  {
    var targets := HealthTargets(name, s.order);
    ProbeResultsSpec(targets, reach);
    ProbeHealthSpec(s.health, targets, reach);
    (s.(health := ProbeHealth(s.health, targets, reach)), ProbeResults(targets, reach))
  }

  /** A health check only ever records flags for registered names, so it
      keeps the invariant. */
  lemma {:induction false} CheckHealthKeepsInv(s: RegistryState, reach: map<string, bool>, name: Option<string>)
    requires Inv(s) && reach.Keys == s.configs.Keys
    ensures Inv(CheckHealth(s, reach, name).0)
  {
    var r := CheckHealth(s, reach, name).0;
    forall n ensures Registered(r, n) {
      assert Registered(s, n);
    }
  }

  // ---------------------------------------------------------------------------
  // Listing and statistics

  datatype BackendInfo = BackendInfo(
    name: string,
    url: string,
    description: string,
    readonly: bool,
    isDefault: bool,
    healthStatus: bool)

  /** One row of `list_backends`. */
  function InfoOf(s: RegistryState, name: string): BackendInfo {
    BackendInfo(
      name,
      if name in s.configs then s.configs[name].url else "unknown",
      if name in s.configs then s.configs[name].description else "",
      if name in s.configs then s.configs[name].readonly else false,
      Some(name) == s.defaultBackend,
      if name in s.health then s.health[name] else false)
  }

  /** `list_backends`: one row per registered name, in insertion order. */
  function Listing(s: RegistryState): (rows: seq<BackendInfo>)
    requires Inv(s)
    ensures |rows| == |s.order|
    ensures forall i :: 0 <= i < |rows| ==> rows[i].name == s.order[i]
    ensures forall i :: 0 <= i < |rows| ==> (rows[i].isDefault <==> s.defaultBackend == Some(s.order[i]))
    ensures forall i :: 0 <= i < |rows| ==> s.order[i] in s.configs && rows[i].url == s.configs[s.order[i]].url
    ensures forall i :: 0 <= i < |rows| ==> (rows[i].healthStatus <==> s.order[i] in s.health && s.health[s.order[i]])
    ensures forall i :: 0 <= i < |rows| ==>
      rows[i].description == s.configs[s.order[i]].description && rows[i].readonly == s.configs[s.order[i]].readonly
  {
    InvFacts(s);
    seq(|s.order|, i requires 0 <= i < |s.order| => InfoOf(s, s.order[i]))
  }

  /** Exactly one row is marked default when there is a default, none otherwise. */
  lemma ListingMarksDefaultOnce(s: RegistryState)
    requires Inv(s)
    ensures s.defaultBackend.Some? ==> exists i :: 0 <= i < |Listing(s)| && Listing(s)[i].isDefault
    ensures s.defaultBackend.None? ==> forall i :: 0 <= i < |Listing(s)| ==> !Listing(s)[i].isDefault
    ensures forall i, j ::
      (0 <= i < |Listing(s)| && 0 <= j < |Listing(s)| && Listing(s)[i].isDefault && Listing(s)[j].isDefault) ==> i == j
  {
    var rows := Listing(s);
    if s.defaultBackend.Some? {
      var d := s.defaultBackend.value;
      assert Registered(s, d);
      var i :| 0 <= i < |s.order| && s.order[i] == d;
      assert rows[i].isDefault;
    }
  }

  datatype Stats = Stats(
    totalBackends: nat,
    defaultBackend: Option<string>,
    healthyBackends: nat,
    readonlyBackends: nat,
    backendSchemes: set<string>)

  /** `get_backend_stats`. */
  function StatsOf(s: RegistryState): (st: Stats)
    requires Inv(s)
    ensures st.totalBackends == |s.order|
    ensures st.healthyBackends <= st.totalBackends && st.readonlyBackends <= st.totalBackends
    ensures st.healthyBackends == |set n | n in s.order && n in s.health && s.health[n]|
    ensures st.readonlyBackends == |set n | n in s.order && n in s.configs && s.configs[n].readonly|
    ensures st.defaultBackend == s.defaultBackend
    ensures forall n :: n in s.configs ==> Url.SchemeOf(s.configs[n].url) in st.backendSchemes
    ensures forall sc :: sc in st.backendSchemes ==> exists n :: n in s.configs && Url.SchemeOf(s.configs[n].url) == sc
  {
    var healthy := set n | n in s.health && s.health[n];
    var readonly := set n | n in s.configs && s.configs[n].readonly;
    StatsCounts(s);
    Stats(
      |s.configs|,
      s.defaultBackend,
      |healthy|,
      |readonly|,
      set n | n in s.configs :: Url.SchemeOf(s.configs[n].url))
  }

  /** Under the invariant the health flags and the configs counted by
      `get_backend_stats` are those of the registered names. */
  lemma StatsCounts(s: RegistryState)
    requires Inv(s)
    ensures |s.configs| == |s.order|
    ensures (set n | n in s.health && s.health[n]) == (set n | n in s.order && n in s.health && s.health[n])
    ensures (set n | n in s.configs && s.configs[n].readonly) == (set n | n in s.order && n in s.configs && s.configs[n].readonly)
    ensures |set n | n in s.order && n in s.health && s.health[n]| <= |s.order|
    ensures |set n | n in s.order && n in s.configs && s.configs[n].readonly| <= |s.order|
  {
    var healthy := set n | n in s.order && n in s.health && s.health[n];
    var readonly := set n | n in s.order && n in s.configs && s.configs[n].readonly;
    var names := set n | n in s.order;
    InvFacts(s);
    assert s.configs.Keys == names;
    Seqs.DistinctCardinality(s.order);
    SubsetCardinality(healthy, names);
    SubsetCardinality(readonly, names);
  }

  /** Every scheme reported by the statistics is a well-formed, non-empty scheme. */
  lemma {:induction false} StatsSchemesWellFormed(s: RegistryState)
    requires Inv(s) && AllValid(s.configs)
    ensures forall sc :: sc in StatsOf(s).backendSchemes ==> Url.IsRfc3986Scheme(sc)
  {
    forall sc | sc in StatsOf(s).backendSchemes ensures Url.IsRfc3986Scheme(sc) {
      var n :| n in s.configs && sc == Url.SchemeOf(s.configs[n].url);
      assert ValidEntry(s.configs, n);
    }
  }

  lemma SubsetCardinality(a: set<string>, b: set<string>)
    requires a <= b
    ensures |a| <= |b|
  {
    assert b == a + (b - a);
  }
}

=== FILE: seqs.dfy ===
/** Sequences of names kept in insertion order. */
module Seqs {

  ghost predicate NoDuplicates(xs: seq<string>) {
    forall i, j :: 0 <= i < j < |xs| ==> xs[i] != xs[j]
  }

  /** `xs` with every occurrence of `x` taken out, the rest kept in order. */
  function Without(xs: seq<string>, x: string): (r: seq<string>)
    ensures |r| <= |xs|
    ensures forall y :: y in r <==> y in xs && y != x
  {
    if xs == [] then []
    else (if xs[0] == x then [] else [xs[0]]) + Without(xs[1..], x)
  }

  lemma {:induction false} WithoutKeepsNoDuplicates(xs: seq<string>, x: string)
    requires NoDuplicates(xs)
    ensures NoDuplicates(Without(xs, x))
    decreases |xs|
  {
    if xs != [] {
      assert NoDuplicates(xs[1..]) by {
        forall i, j | 0 <= i < j < |xs| - 1 ensures xs[1..][i] != xs[1..][j] {
          assert xs[1..][i] == xs[i + 1] && xs[1..][j] == xs[j + 1];
        }
      }
      WithoutKeepsNoDuplicates(xs[1..], x);
      var t := Without(xs[1..], x);
      assert xs[0] !in xs[1..] by {
        forall k | 0 <= k < |xs| - 1 ensures xs[1..][k] != xs[0] {
          assert xs[1..][k] == xs[k + 1];
        }
      }
      assert xs[0] !in t;
    }
  }

  /** In a list without duplicates, taking out the element at `k` closes the
      gap and keeps every other element in its order. */
  lemma {:induction false} WithoutAt(xs: seq<string>, x: string, k: int)
    requires NoDuplicates(xs) && 0 <= k < |xs| && xs[k] == x
    ensures Without(xs, x) == xs[..k] + xs[k + 1..]
    decreases k
  {
    var rest := xs[1..];
    assert NoDuplicates(rest) by {
      forall i, j | 0 <= i < j < |rest| ensures rest[i] != rest[j] {
        assert rest[i] == xs[i + 1] && rest[j] == xs[j + 1];
      }
    }
    if k == 0 {
      assert x !in rest by {
        forall i | 0 <= i < |rest| ensures rest[i] != x {
          assert rest[i] == xs[i + 1];
        }
      }
      WithoutAbsent(rest, x);
    } else {
      assert xs[0] != x;
      assert rest[k - 1] == x;
      WithoutAt(rest, x, k - 1);
      assert xs[..k] == [xs[0]] + rest[..k - 1];
      assert xs[k + 1..] == rest[k..];
    }
  }

  /** Taking out an element that is not there changes nothing. */
  lemma {:induction false} WithoutAbsent(xs: seq<string>, x: string)
    requires x !in xs
    ensures Without(xs, x) == xs
    decreases |xs|
  {
    if xs != [] {
      assert xs[0] != x;
      WithoutAbsent(xs[1..], x);
      assert [xs[0]] + xs[1..] == xs;
    }
  }

  /** A sequence without duplicates has as many elements as its set of elements. */
  lemma {:induction false} DistinctCardinality(xs: seq<string>)
    requires NoDuplicates(xs)
    ensures |set x | x in xs| == |xs|
    decreases |xs|
  {
    if xs != [] {
      var rest := xs[1..];
      assert NoDuplicates(rest) by {
        forall i, j | 0 <= i < j < |rest| ensures rest[i] != rest[j] {
          assert rest[i] == xs[i + 1] && rest[j] == xs[j + 1];
        }
      }
      DistinctCardinality(rest);
      assert xs[0] !in rest by {
        forall k | 0 <= k < |rest| ensures rest[k] != xs[0] {
          assert rest[k] == xs[k + 1];
        }
      }
      assert (set x | x in xs) == (set x | x in rest) + {xs[0]};
    }
  }
}

=== FILE: server.dfy ===
/** The file tools of the MCP server and the loop that registers the
    backends listed in a configuration file. Every tool picks its backend
    through `BackendManager.GetBackend`, the tools that change data refuse a
    read-only backend, and the operation itself is forwarded to that
    backend's driver. */
module Server {
  import opened Wrappers
  import opened BackendConfigs
  import opened DataAccess
  import opened Registry
  import opened Manager
  import Seqs

  /** What a tool reports: a lookup or read-only failure, re-raised as a
      "Backend error" ValueError, or a failure of the driver, re-raised as a
      generic exception naming the operation. */
  datatype ToolError = BackendError(reason: RegistryError) | OperationFailed(cause: DriverError)

  /** One row of `list_files`: the listed path and the backend it is tagged with. */
  datatype Listed = Listed(path: Path, backend: Option<string>)

  /** Python's `backend or default`: an absent or empty name falls back to the default. */
  function Resolve(backend: Option<string>, default: Option<string>): Option<string> {
    if backend.Some? && backend.value != "" then backend else default
  }

  /** The read-only check of the tools that change data. It is made only
      when the resolved name is not empty: the name must have a config
      (`get_backend_config`), and that config must not be read-only. */
  function ReadOnlyCheck(s: RegistryState, name: Option<string>): Option<RegistryError> {
    if name.Some? && name.value != "" then
      match ConfigOf(s, name.value)
      case Failure(e) => Some(e)
      case Success(cfg) => if cfg.readonly then Some(ReadOnlyBackend(name.value)) else None
    else None
  }

  /** The backend `write_file`, `rename_file` and `create_dir` change: the one
      `get_backend` returns, provided the read-only check on `backend or
      default` passes. */
  function MutationTarget(s: RegistryState, backend: Option<string>): (r: Result<string, RegistryError>)
    ensures r.Success? ==> Lookup(s, backend) == Success(r.value)
    ensures Lookup(s, backend).Failure? ==> r == Failure(Lookup(s, backend).error)
  {
    match Lookup(s, backend)
    case Failure(e) => Failure(e)
    case Success(n) =>
      var gate := ReadOnlyCheck(s, Resolve(backend, s.defaultBackend));
      if gate.Some? then Failure(gate.value) else Success(n)
  }

  /** A registered name is never empty: it passed `_validate` and is filed under itself. */
  lemma NoEmptyName(s: RegistryState)
    requires Inv(s) && AllValid(s.configs)
    ensures "" !in s.configs
  {
    assert ValidEntry(s.configs, "");
    assert Registered(s, "");
  }

  /** `backend or default` names exactly the backend `get_backend` returned. */
  lemma ResolveNamesLookup(s: RegistryState, backend: Option<string>)
    requires Inv(s) && AllValid(s.configs)
    requires Lookup(s, backend).Success?
    ensures Resolve(backend, s.defaultBackend) == Some(Lookup(s, backend).value)
  {
    NoEmptyName(s);
  }

  /** A changing tool goes through exactly when `get_backend` finds the
      backend and that backend is not read-only; its errors are those of the
      lookup, then the read-only refusal. */
  lemma MutationTargetSpec(s: RegistryState, backend: Option<string>)
    requires Inv(s) && AllValid(s.configs)
    ensures Lookup(s, backend).Success? ==>
      MutationTarget(s, backend) ==
        if s.configs[Lookup(s, backend).value].readonly
        then Failure(ReadOnlyBackend(Lookup(s, backend).value))
        else Success(Lookup(s, backend).value)
  {
    NoEmptyName(s);
    if Lookup(s, backend).Success? {
      ResolveNamesLookup(s, backend);
    }
  }

  /** How `copy_file` moves the data: with the backend's own copy when both
      resolved names agree, or by reading from one backend and writing to
      the other. */
  datatype CopyRoute = Native(name: string) | Bridge(src: string, dst: string)

  /** The lookups and checks of `copy_file`: the destination's read-only
      check on the resolved name comes first; equal resolved names use the
      native copy of `get_backend(src name)`; otherwise both backends are
      looked up with the names exactly as given. */
  function CopyPlan(s: RegistryState, srcBackend: Option<string>, dstBackend: Option<string>): (r: Result<CopyRoute, RegistryError>)
    ensures r.Success? && r.value.Native? ==> r.value.name in s.configs
    ensures r.Success? && r.value.Bridge? ==> Lookup(s, srcBackend) == Success(r.value.src)
    ensures r.Success? && r.value.Bridge? ==> Lookup(s, dstBackend) == Success(r.value.dst)
  {
    var srcName := Resolve(srcBackend, s.defaultBackend);
    var dstName := Resolve(dstBackend, s.defaultBackend);
    var gate := ReadOnlyCheck(s, dstName);
    if gate.Some? then Failure(gate.value)
    else if srcName == dstName then
      match Lookup(s, srcName)
      case Failure(e) => Failure(e)
      case Success(n) => Success(Native(n))
    else
      match Lookup(s, srcBackend)
      case Failure(e) => Failure(e)
      case Success(a) =>
        match Lookup(s, dstBackend)
        case Failure(e) => Failure(e)
        case Success(b) => Success(Bridge(a, b))
  }

  /** The backend a copy writes to. */
  function CopyDestination(route: CopyRoute): string {
    if route.Native? then route.name else route.dst
  }

  /** A copy never writes to a read-only backend, and a read-only
      destination is refused by name. */
  lemma CopyNeverWritesReadOnly(s: RegistryState, srcBackend: Option<string>, dstBackend: Option<string>)
    requires Inv(s) && AllValid(s.configs)
    ensures CopyPlan(s, srcBackend, dstBackend).Success? ==>
      CopyDestination(CopyPlan(s, srcBackend, dstBackend).value) in s.configs &&
      !s.configs[CopyDestination(CopyPlan(s, srcBackend, dstBackend).value)].readonly
    ensures Lookup(s, dstBackend).Success? && s.configs[Lookup(s, dstBackend).value].readonly ==>
      CopyPlan(s, srcBackend, dstBackend) == Failure(ReadOnlyBackend(Lookup(s, dstBackend).value))
  {
    NoEmptyName(s);
    if Lookup(s, dstBackend).Success? {
      ResolveNamesLookup(s, dstBackend);
    }
  }

  /** A read-and-write copy always joins two different backends, and when
      both backends are found and the destination is writable the copy is
      planned. */
  lemma CopyPlanSpec(s: RegistryState, srcBackend: Option<string>, dstBackend: Option<string>)
    requires Inv(s) && AllValid(s.configs)
    ensures CopyPlan(s, srcBackend, dstBackend).Success? && CopyPlan(s, srcBackend, dstBackend).value.Bridge? ==>
      CopyPlan(s, srcBackend, dstBackend).value.src != CopyPlan(s, srcBackend, dstBackend).value.dst
    ensures Lookup(s, srcBackend).Success? && Lookup(s, dstBackend).Success? &&
            !s.configs[Lookup(s, dstBackend).value].readonly ==>
      CopyPlan(s, srcBackend, dstBackend).Success? &&
      CopyDestination(CopyPlan(s, srcBackend, dstBackend).value) == Lookup(s, dstBackend).value
  {
    if Lookup(s, srcBackend).Success? {
      ResolveNamesLookup(s, srcBackend);
    }
    if Lookup(s, dstBackend).Success? {
      ResolveNamesLookup(s, dstBackend);
    }
  }

  /** Every driver is left exactly as it was. */
  twostate predicate DriversUnchanged(mgr: BackendManager)
    reads mgr, mgr.backends.Values
  {
    && mgr.backends == old(mgr.backends)
    && forall n :: n in old(mgr.backends) ==> unchanged(old(mgr.backends)[n])
  }

  /** Every driver but the one filed under `name` is left exactly as it was. */
  twostate predicate OthersUnchanged(mgr: BackendManager, name: string)
    reads mgr, mgr.backends.Values
  {
    && mgr.backends == old(mgr.backends)
    && forall n :: n in old(mgr.backends) && n != name ==> unchanged(old(mgr.backends)[n])
  }

  /** No driver's stored files or listed paths change. */
  twostate predicate StoresUnchanged(mgr: BackendManager)
    reads mgr, mgr.backends.Values
  {
    && mgr.backends == old(mgr.backends)
    && forall n :: n in mgr.backends ==>
         mgr.backends[n].files == old(mgr.backends[n].files) && mgr.backends[n].entries == old(mgr.backends[n].entries)
  }

  /** The driver error a tool re-raises. */
  function Reraise<T>(r: Result<T, DriverError>): Result<T, ToolError> {
    match r
    case Success(v) => Success(v)
    case Failure(e) => Failure(OperationFailed(e))
  }

  /** `get_backend` followed by the read-only check, the common opening of
      `write_file`, `rename_file` and `create_dir`. */
  method WritableClient(mgr: BackendManager, backend: Option<string>) returns (r: Result<Dal, ToolError>)
    requires mgr.Valid()
    ensures MutationTarget(mgr.Model(), backend).Failure? ==>
      r == Failure(BackendError(MutationTarget(mgr.Model(), backend).error))
    ensures MutationTarget(mgr.Model(), backend).Success? ==>
      r == Success(mgr.backends[MutationTarget(mgr.Model(), backend).value])
  {
    var c := mgr.GetBackend(backend);
    if c.Failure? {
      return Failure(BackendError(c.error));
    }
    var name := Resolve(backend, mgr.defaultBackend);
    if name.Some? && name.value != "" {
      var cfg := mgr.GetBackendConfig(name.value);
      if cfg.Failure? {
        return Failure(BackendError(cfg.error));
      }
      if cfg.value.readonly {
        return Failure(BackendError(ReadOnlyBackend(name.value)));
      }
    }
    r := Success(c.value);
  }

  /** `list_files`: the entries under `path`, in listing order, each tagged
      with `backend or default`, which names the backend listed. */
  method ListFiles(mgr: BackendManager, path: Path, backend: Option<string>) returns (r: Result<seq<Listed>, ToolError>)
    requires mgr.Valid() && AllValid(mgr.configs)
    modifies mgr.backends.Values
    ensures StoresUnchanged(mgr)
    ensures Lookup(mgr.Model(), backend).Failure? ==>
      r == Failure(BackendError(Lookup(mgr.Model(), backend).error)) && DriversUnchanged(mgr)
    ensures Lookup(mgr.Model(), backend).Success? ==>
      var n := Lookup(mgr.Model(), backend).value;
      var d := mgr.backends[n];
      && (r.Success? <==> d.reachable)
      && (r.Failure? ==> r.error == OperationFailed(Unreachable))
      && (r.Success? ==> |r.value| == |EntriesUnder(d.entries, path)|)
      && (r.Success? ==> forall i :: 0 <= i < |r.value| ==> r.value[i] == Listed(EntriesUnder(d.entries, path)[i], Some(n)))
      && OthersUnchanged(mgr, n)
  {
    var c := mgr.GetBackend(backend);
    if c.Failure? {
      return Failure(BackendError(c.error));
    }
    ResolveNamesLookup(mgr.Model(), backend);
    var listing := c.value.List(path);
    if listing.Failure? {
      return Failure(OperationFailed(listing.error));
    }
    var paths := listing.value;
    var tag := Resolve(backend, mgr.defaultBackend);
    var entries: seq<Listed> := [];
    for i := 0 to |paths|
      invariant |entries| == i
      invariant forall k :: 0 <= k < i ==> entries[k] == Listed(paths[k], tag)
    {
      entries := entries + [Listed(paths[i], tag)];
    }
    r := Success(entries);
  }

  /** `read_file`: the stored bytes of `path`. */
  method ReadFile(mgr: BackendManager, path: Path, backend: Option<string>) returns (r: Result<Bytes, ToolError>)
    requires mgr.Valid()
    modifies mgr.backends.Values
    ensures StoresUnchanged(mgr)
    ensures Lookup(mgr.Model(), backend).Failure? ==>
      r == Failure(BackendError(Lookup(mgr.Model(), backend).error)) && DriversUnchanged(mgr)
    ensures Lookup(mgr.Model(), backend).Success? ==>
      var d := mgr.backends[Lookup(mgr.Model(), backend).value];
      && r == (if !d.reachable then Failure(OperationFailed(Unreachable))
               else if path !in d.files then Failure(OperationFailed(NotFound(path)))
               else Success(d.files[path]))
      && OthersUnchanged(mgr, Lookup(mgr.Model(), backend).value)
  {
    var c := mgr.GetBackend(backend);
    if c.Failure? {
      return Failure(BackendError(c.error));
    }
    var data := c.value.Read(path);
    r := Reraise(data);
  }

  /** `stat_file`: the metadata of a file or listed directory. */
  method StatFile(mgr: BackendManager, path: Path, backend: Option<string>) returns (r: Result<Metadata, ToolError>)
    requires mgr.Valid()
    modifies mgr.backends.Values
    ensures StoresUnchanged(mgr)
    ensures Lookup(mgr.Model(), backend).Failure? ==>
      r == Failure(BackendError(Lookup(mgr.Model(), backend).error)) && DriversUnchanged(mgr)
    ensures Lookup(mgr.Model(), backend).Success? ==>
      var d := mgr.backends[Lookup(mgr.Model(), backend).value];
      && r == (if !d.reachable then Failure(OperationFailed(Unreachable))
               else if path in d.files then Success(Metadata(false, |d.files[path]|))
               else if path in d.entries then Success(Metadata(true, 0))
               else Failure(OperationFailed(NotFound(path))))
      && OthersUnchanged(mgr, Lookup(mgr.Model(), backend).value)
  {
    var c := mgr.GetBackend(backend);
    if c.Failure? {
      return Failure(BackendError(c.error));
    }
    var meta := c.value.Stat(path);
    r := Reraise(meta);
  }

  /** `write_file`: store `content` at `path` on a writable backend. */
  method WriteFile(mgr: BackendManager, path: Path, content: Bytes, backend: Option<string>) returns (r: Result<(), ToolError>)
    requires mgr.Valid() && AllValid(mgr.configs)
    modifies mgr.backends.Values
    ensures Lookup(mgr.Model(), backend).Failure? ==>
      r == Failure(BackendError(Lookup(mgr.Model(), backend).error)) && DriversUnchanged(mgr)
    ensures Lookup(mgr.Model(), backend).Success? && mgr.configs[Lookup(mgr.Model(), backend).value].readonly ==>
      r == Failure(BackendError(ReadOnlyBackend(Lookup(mgr.Model(), backend).value))) && DriversUnchanged(mgr)
    ensures Lookup(mgr.Model(), backend).Success? && !mgr.configs[Lookup(mgr.Model(), backend).value].readonly ==>
      var n := Lookup(mgr.Model(), backend).value;
      var d := mgr.backends[n];
      && r == (if d.reachable then Success(()) else Failure(OperationFailed(Unreachable)))
      && d.files == (if d.reachable then old(d.files)[path := content] else old(d.files))
      && d.log == old(d.log) + [Call.Write(path, content)]
      && d.entries == (if d.reachable then AddEntry(old(d.entries), path) else old(d.entries))
      && OthersUnchanged(mgr, n)
  {
    MutationTargetSpec(mgr.Model(), backend);
    var c := WritableClient(mgr, backend);
    if c.Failure? {
      return Failure(c.error);
    }
    var w := c.value.Write(path, content);
    r := Reraise(w);
  }

  /** `rename_file`: move `src` to `dst` within one writable backend. */
  method RenameFile(mgr: BackendManager, src: Path, dst: Path, backend: Option<string>) returns (r: Result<(), ToolError>)
    requires mgr.Valid() && AllValid(mgr.configs)
    modifies mgr.backends.Values
    ensures Lookup(mgr.Model(), backend).Failure? ==>
      r == Failure(BackendError(Lookup(mgr.Model(), backend).error)) && DriversUnchanged(mgr)
    ensures Lookup(mgr.Model(), backend).Success? && mgr.configs[Lookup(mgr.Model(), backend).value].readonly ==>
      r == Failure(BackendError(ReadOnlyBackend(Lookup(mgr.Model(), backend).value))) && DriversUnchanged(mgr)
    ensures Lookup(mgr.Model(), backend).Success? && !mgr.configs[Lookup(mgr.Model(), backend).value].readonly ==>
      var n := Lookup(mgr.Model(), backend).value;
      var d := mgr.backends[n];
      && r == (if !d.reachable then Failure(OperationFailed(Unreachable))
               else if src !in old(d.files) then Failure(OperationFailed(NotFound(src)))
               else Success(()))
      && d.files == (if r.Success? then (old(d.files) - {src})[dst := old(d.files)[src]] else old(d.files))
      && d.entries == (if r.Success? then AddEntry(Seqs.Without(old(d.entries), src), dst) else old(d.entries))
      && d.log == old(d.log) + [Call.Rename(src, dst)]
      && OthersUnchanged(mgr, n)
  {
    MutationTargetSpec(mgr.Model(), backend);
    var c := WritableClient(mgr, backend);
    if c.Failure? {
      return Failure(c.error);
    }
    var m := c.value.Rename(src, dst);
    r := Reraise(m);
  }

  /** `create_dir`: list `path` as a directory on a writable backend. */
  method CreateDir(mgr: BackendManager, path: Path, backend: Option<string>) returns (r: Result<(), ToolError>)
    requires mgr.Valid() && AllValid(mgr.configs)
    modifies mgr.backends.Values
    ensures Lookup(mgr.Model(), backend).Failure? ==>
      r == Failure(BackendError(Lookup(mgr.Model(), backend).error)) && DriversUnchanged(mgr)
    ensures Lookup(mgr.Model(), backend).Success? && mgr.configs[Lookup(mgr.Model(), backend).value].readonly ==>
      r == Failure(BackendError(ReadOnlyBackend(Lookup(mgr.Model(), backend).value))) && DriversUnchanged(mgr)
    ensures Lookup(mgr.Model(), backend).Success? && !mgr.configs[Lookup(mgr.Model(), backend).value].readonly ==>
      var n := Lookup(mgr.Model(), backend).value;
      var d := mgr.backends[n];
      && r == (if d.reachable then Success(()) else Failure(OperationFailed(Unreachable)))
      && d.files == old(d.files)
      && d.entries == (if d.reachable then AddEntry(old(d.entries), path) else old(d.entries))
      && d.log == old(d.log) + [Call.CreateDir(path)]
      && OthersUnchanged(mgr, n)
  {
    MutationTargetSpec(mgr.Model(), backend);
    var c := WritableClient(mgr, backend);
    if c.Failure? {
      return Failure(c.error);
    }
    var m := c.value.CreateDir(path);
    r := Reraise(m);
  }

  /** The drivers a copy uses, as `CopyPlan` chose them. */
  datatype CopyClients = NativeClient(driver: Dal) | BridgeClients(source: Dal, target: Dal)

  /** The lookups of `copy_file`, made in its order. */
  method CopyClientsOf(mgr: BackendManager, srcBackend: Option<string>, dstBackend: Option<string>)
    returns (r: Result<CopyClients, ToolError>)
    requires mgr.Valid()
    ensures CopyPlan(mgr.Model(), srcBackend, dstBackend).Failure? ==>
      r == Failure(BackendError(CopyPlan(mgr.Model(), srcBackend, dstBackend).error))
    ensures CopyPlan(mgr.Model(), srcBackend, dstBackend).Success? && CopyPlan(mgr.Model(), srcBackend, dstBackend).value.Native? ==>
      r == Success(NativeClient(mgr.backends[CopyPlan(mgr.Model(), srcBackend, dstBackend).value.name]))
    ensures CopyPlan(mgr.Model(), srcBackend, dstBackend).Success? && CopyPlan(mgr.Model(), srcBackend, dstBackend).value.Bridge? ==>
      r == Success(BridgeClients(mgr.backends[CopyPlan(mgr.Model(), srcBackend, dstBackend).value.src],
                                 mgr.backends[CopyPlan(mgr.Model(), srcBackend, dstBackend).value.dst]))
  {
    var srcName := Resolve(srcBackend, mgr.defaultBackend);
    var dstName := Resolve(dstBackend, mgr.defaultBackend);
    if dstName.Some? && dstName.value != "" {
      var cfg := mgr.GetBackendConfig(dstName.value);
      if cfg.Failure? {
        return Failure(BackendError(cfg.error));
      }
      if cfg.value.readonly {
        return Failure(BackendError(ReadOnlyBackend(dstName.value)));
      }
    }
    if srcName == dstName {
      var c := mgr.GetBackend(srcName);
      if c.Failure? {
        return Failure(BackendError(c.error));
      }
      return Success(NativeClient(c.value));
    }
    var a := mgr.GetBackend(srcBackend);
    if a.Failure? {
      return Failure(BackendError(a.error));
    }
    var b := mgr.GetBackend(dstBackend);
    if b.Failure? {
      return Failure(BackendError(b.error));
    }
    r := Success(BridgeClients(a.value, b.value));
  }

  /** `copy_file`: a native copy within one backend, or a read from the
      source backend followed by a write to the destination backend. */
  method CopyFile(mgr: BackendManager, src: Path, dst: Path, srcBackend: Option<string>, dstBackend: Option<string>)
    returns (r: Result<(), ToolError>)
    requires mgr.Valid() && AllValid(mgr.configs)
    modifies mgr.backends.Values
    ensures Lookup(mgr.Model(), dstBackend).Success? && mgr.configs[Lookup(mgr.Model(), dstBackend).value].readonly ==>
      r == Failure(BackendError(ReadOnlyBackend(Lookup(mgr.Model(), dstBackend).value))) && DriversUnchanged(mgr)
    ensures CopyPlan(mgr.Model(), srcBackend, dstBackend).Success? ==>
      !mgr.configs[CopyDestination(CopyPlan(mgr.Model(), srcBackend, dstBackend).value)].readonly
    ensures CopyPlan(mgr.Model(), srcBackend, dstBackend).Failure? ==>
      r == Failure(BackendError(CopyPlan(mgr.Model(), srcBackend, dstBackend).error)) && DriversUnchanged(mgr)
    ensures CopyPlan(mgr.Model(), srcBackend, dstBackend).Success? && CopyPlan(mgr.Model(), srcBackend, dstBackend).value.Native? ==>
      var n := CopyPlan(mgr.Model(), srcBackend, dstBackend).value.name;
      var d := mgr.backends[n];
      && r == (if !d.reachable then Failure(OperationFailed(Unreachable))
               else if src !in old(d.files) then Failure(OperationFailed(NotFound(src)))
               else Success(()))
      && d.files == (if r.Success? then old(d.files)[dst := old(d.files)[src]] else old(d.files))
      && d.entries == (if r.Success? then AddEntry(old(d.entries), dst) else old(d.entries))
      && d.log == old(d.log) + [Call.Copy(src, dst)]
      && OthersUnchanged(mgr, n)
    ensures CopyPlan(mgr.Model(), srcBackend, dstBackend).Success? && CopyPlan(mgr.Model(), srcBackend, dstBackend).value.Bridge? ==>
      var route := CopyPlan(mgr.Model(), srcBackend, dstBackend).value;
      var from := mgr.backends[route.src];
      var to := mgr.backends[route.dst];
      && r == (if !from.reachable then Failure(OperationFailed(Unreachable))
               else if src !in old(from.files) then Failure(OperationFailed(NotFound(src)))
               else if !to.reachable then Failure(OperationFailed(Unreachable))
               else Success(()))
      && from.files == old(from.files) && from.entries == old(from.entries)
      && from.log == old(from.log) + [Call.Read(src)]
      && to.files == (if r.Success? then old(to.files)[dst := old(from.files)[src]] else old(to.files))
      && to.entries == (if r.Success? then AddEntry(old(to.entries), dst) else old(to.entries))
      && to.log == (if from.reachable && src in old(from.files)
                    then old(to.log) + [Call.Write(dst, old(from.files)[src])]
                    else old(to.log))
      && forall n :: n in mgr.backends && n != route.src && n != route.dst ==> unchanged(mgr.backends[n])
  {
    CopyNeverWritesReadOnly(mgr.Model(), srcBackend, dstBackend);
    CopyPlanSpec(mgr.Model(), srcBackend, dstBackend);
    var clients := CopyClientsOf(mgr, srcBackend, dstBackend);
    if clients.Failure? {
      return Failure(clients.error);
    }
    match clients.value
    case NativeClient(d) =>
      var c := d.Copy(src, dst);
      r := Reraise(c);
    case BridgeClients(from, to) =>
      assert from != to;
      var data := from.Read(src);
      if data.Failure? {
        return Failure(OperationFailed(data.error));
      }
      var w := to.Write(dst, data.value);
      r := Reraise(w);
  }

  /** One element of the configuration file's `backends` list; a key that
      is absent is `None`. `backing` is the storage its URL reaches. */
  datatype ConfigRecord = ConfigRecord(
    name: Option<string>,
    url: Option<string>,
    description: Option<string>,
    readonly: Option<bool>,
    timeout: Option<int>,
    retryAttempts: Option<int>,
    isDefault: Option<bool>,
    validateConnection: Option<bool>,
    backing: Backing)

  /** `dict.get(key, fallback)`. */
  function OrElse<T>(o: Option<T>, fallback: T): T {
    if o.Some? then o.value else fallback
  }

  /** The `register_backend` call a record makes, with the loader's defaults
      for the optional keys. */
  function RequestOf(rec: ConfigRecord): (req: Registration)
    requires rec.name.Some? && rec.url.Some?
    ensures req.name == rec.name.value && req.url == rec.url.value
    ensures rec.description.None? ==> req.description == ""
    ensures rec.readonly.None? ==> !req.readonly
    ensures rec.timeout.None? ==> req.timeout == 30
    ensures rec.retryAttempts.None? ==> req.retryAttempts == 3
    ensures rec.isDefault.None? ==> !req.setAsDefault
    ensures rec.validateConnection.None? ==> req.validateConnection
    ensures rec.description.Some? ==> req.description == rec.description.value
    ensures rec.readonly.Some? ==> req.readonly == rec.readonly.value
    ensures rec.timeout.Some? ==> req.timeout == rec.timeout.value
    ensures rec.retryAttempts.Some? ==> req.retryAttempts == rec.retryAttempts.value
    ensures rec.isDefault.Some? ==> req.setAsDefault == rec.isDefault.value
    ensures rec.validateConnection.Some? ==> req.validateConnection == rec.validateConnection.value
  {
    Registration(rec.name.value, rec.url.value, OrElse(rec.description, ""), OrElse(rec.readonly, false),
                 OrElse(rec.timeout, 30), OrElse(rec.retryAttempts, 3), OrElse(rec.isDefault, false),
                 OrElse(rec.validateConnection, true))
  }

  /** One pass of the loop: a record with a name and a URL is registered,
      any failure is logged and skipped, and a record missing either key is
      skipped as well. */
  function LoadStep(s: RegistryState, rec: ConfigRecord): RegistryState {
    if rec.name.Some? && rec.url.Some? then Register(s, RequestOf(rec), rec.backing.reachable).0 else s
  }

  /** The registry after loading every record, in file order. */
  function LoadAll(s: RegistryState, records: seq<ConfigRecord>): RegistryState
    decreases |records|
  {
    if records == [] then s else LoadAll(LoadStep(s, records[0]), records[1..])
  }

  /** The loop as written: a record without "name" raises KeyError inside
      the handler that logs the failure, so the whole load stops there. The
      flag says whether it stopped. */
  function LoadAllAsWritten(s: RegistryState, records: seq<ConfigRecord>): (r: (RegistryState, bool))
    ensures r.1 <==> exists i :: 0 <= i < |records| && records[i].name.None?
    decreases |records|
  {
    if records == [] then (s, false)
    else if records[0].name.None? then (s, true)
    else LoadAllAsWritten(LoadStep(s, records[0]), records[1..])
  }

  /** Both loops agree on files whose records all have a name. */
  lemma {:induction false} AsWrittenAgreesWhenNamed(s: RegistryState, records: seq<ConfigRecord>)
    requires forall i :: 0 <= i < |records| ==> records[i].name.Some?
    ensures LoadAllAsWritten(s, records) == (LoadAll(s, records), false)
    decreases |records|
  {
    if records != [] {
      AsWrittenAgreesWhenNamed(LoadStep(s, records[0]), records[1..]);
    }
  }

  /** A record whose registration succeeds on its own: it has a name and a
      URL, its config passes `_validate`, and its backend answers or is not
      probed. */
  predicate Registers(rec: ConfigRecord) {
    && rec.name.Some? && rec.url.Some?
    && Register(Empty, RequestOf(rec), rec.backing.reachable).1.Success?
  }

  /** Whether a registration succeeds does not depend on the registry it is made in. */
  lemma LoadStepRegisters(rec: ConfigRecord)
    requires Registers(rec)
    ensures forall s :: rec.name.value in LoadStep(s, rec).configs
  {
    var req := RequestOf(rec);
    assert BuildConfig(req).Success?;
    forall s ensures rec.name.value in LoadStep(s, rec).configs {
      assert Register(s, req, rec.backing.reachable).1.Success?;
    }
  }

  /** The parts of a URL made of a scheme alone. */
  lemma SchemeOnlyUrlParts()
    ensures Url.SplitUrl("fs:") == Url.SplitResult("fs", "", "", "", "")
  {
    var u := "fs:";
    assert Url.StripLeadingC0(u) == u;
    assert Url.RemoveUnsafe(u[2..]) == u[2..];
    assert Url.RemoveUnsafe(u[1..]) == u[1..];
    assert Url.RemoveUnsafe(u) == u;
    assert Url.IndexOf(u, ':') == 2;
    assert Url.Lower(u[..2]) == "fs";
    assert Url.SplitScheme(u) == ("fs", "");
    assert Url.SplitNetloc("") == ("", "");
    assert Url.IndexOf("", '#') == 0;
    assert Url.SplitQuery("") == ("", "", "");
  }

  /** A URL made of a scheme alone passes `_validate`. */
  lemma SchemeOnlyUrlAccepted()
    ensures UrlAccepted("fs:")
  {
    SchemeOnlyUrlParts();
    assert Url.UrlParse("fs:").Success?;
  }

  /** A request whose name and URL pass `_validate` builds its config. */
  lemma AcceptedBuilds(req: Registration)
    requires ValidName(req.name) && UrlAccepted(req.url)
    ensures BuildConfig(req).Success?
  {
  }

  /** A record with a valid name, an accepted URL and no probe registers. */
  lemma AcceptedRecordRegisters(name: string, url: string, backing: Backing)
    requires ValidName(name) && UrlAccepted(url)
    ensures Registers(ConfigRecord(Some(name), Some(url), None, None, None, None, None, Some(false), backing))
  {
    var rec := ConfigRecord(Some(name), Some(url), None, None, None, None, None, Some(false), backing);
    AcceptedBuilds(RequestOf(rec));
  }

  /** The record `{"name": "b", "url": "fs:", "validate_connection": false}`
      registers. */
  lemma PlainRecordRegisters(backing: Backing)
    ensures Registers(ConfigRecord(Some("b"), Some("fs:"), None, None, None, None, None, Some(false), backing))
  {
    SchemeOnlyUrlAccepted();
    assert ValidName("b");
    AcceptedRecordRegisters("b", "fs:", backing);
  }

  /** The counterexample: a nameless record stops the load as written, so a
      record after it that would register is never registered; skipping the
      nameless record instead registers it. `PlainRecordRegisters` gives
      such a record. */
  lemma NamelessRecordStopsLoad(s: RegistryState, nameless: ConfigRecord, good: ConfigRecord)
    requires nameless.name.None? && Registers(good)
    ensures LoadAllAsWritten(s, [nameless, good]) == (s, true)
    ensures good.name.value in LoadAll(s, [nameless, good]).configs
  {
    LoadStepRegisters(good);
    RegisteredSurvives(s, [nameless, good], 1, good.name.value);
  }

  /** Loading keeps the registry invariant. */
  lemma {:induction false} LoadAllKeepsInv(s: RegistryState, records: seq<ConfigRecord>)
    requires Inv(s)
    ensures Inv(LoadAll(s, records))
    decreases |records|
  {
    if records != [] {
      if records[0].name.Some? && records[0].url.Some? {
        RegisterKeepsInv(s, RequestOf(records[0]), records[0].backing.reachable);
      }
      LoadAllKeepsInv(LoadStep(s, records[0]), records[1..]);
    }
  }

  /** Loading only ever files configs that passed `_validate`. */
  lemma {:induction false} LoadAllKeepsValid(s: RegistryState, records: seq<ConfigRecord>)
    requires AllValid(s.configs)
    ensures AllValid(LoadAll(s, records).configs)
    decreases |records|
  {
    if records != [] {
      if records[0].name.Some? && records[0].url.Some? {
        RegisterKeepsValid(s, RequestOf(records[0]), records[0].backing.reachable);
      }
      LoadAllKeepsValid(LoadStep(s, records[0]), records[1..]);
    }
  }

  /** Loading never unregisters a name. */
  lemma {:induction false} LoadAllKeepsNames(s: RegistryState, records: seq<ConfigRecord>)
    ensures s.configs.Keys <= LoadAll(s, records).configs.Keys
    decreases |records|
  {
    if records != [] {
      LoadAllKeepsNames(LoadStep(s, records[0]), records[1..]);
    }
  }

  /** A name that record `i` registers in any state is registered once all records are loaded. */
  lemma {:induction false} RegisteredSurvives(s: RegistryState, records: seq<ConfigRecord>, i: nat, name: string)
    requires i < |records| && forall t :: name in LoadStep(t, records[i]).configs
    ensures name in LoadAll(s, records).configs
    decreases i
  {
    var tail := records[1..];
    if i == 0 {
      assert name in LoadStep(s, records[0]).configs;
      LoadAllKeepsNames(LoadStep(s, records[0]), tail);
    } else {
      assert tail[i - 1] == records[i];
      RegisteredSurvives(LoadStep(s, records[0]), tail, i - 1, name);
    }
  }

  /** Every record whose registration succeeds on its own ends up
      registered, whatever the records around it do. */
  lemma LoadAllRegistersEach(s: RegistryState, records: seq<ConfigRecord>, i: nat)
    requires i < |records| && Registers(records[i])
    ensures records[i].name.value in LoadAll(s, records).configs
  {
    LoadStepRegisters(records[i]);
    RegisteredSurvives(s, records, i, records[i].name.value);
  }

  /** `load_config_from_file` once the file is parsed: register each record
      in turn, logging and skipping any that fails. */
  method LoadConfigs(mgr: BackendManager, records: seq<ConfigRecord>)
    requires mgr.Valid()
    modifies mgr
    ensures mgr.Valid()
    ensures mgr.Model() == LoadAll(old(mgr.Model()), records)
    ensures AllValid(old(mgr.configs)) ==> AllValid(mgr.configs)
  {
    for i := 0 to |records|
      invariant mgr.Valid()
      invariant AllValid(old(mgr.configs)) ==> AllValid(mgr.configs)
      invariant LoadAll(mgr.Model(), records[i..]) == LoadAll(old(mgr.Model()), records)
    {
      var rec := records[i];
      assert records[i..][1..] == records[i + 1..];
      if rec.name.Some? && rec.url.Some? {
        var req := RequestOf(rec);
        var _ := mgr.RegisterBackend(req.name, req.url, req.description, req.readonly, req.timeout,
                                     req.retryAttempts, req.setAsDefault, req.validateConnection, rec.backing);
      }
    }
  }
}

=== FILE: url.dfy ===
/** The parts of Python's `urllib.parse` that the backend layer relies on:
    `urlparse`/`urlsplit` (scheme, network location, path, query, fragment)
    and `parse_qs` with its defaults: pairs split on `&`, `+` read as a
    space, percent escapes decoded, and pairs with a blank value dropped
    (`keep_blank_values=False`). */
module Url {
  import opened Wrappers

  predicate IsAsciiLetter(c: char) { 'a' <= c <= 'z' || 'A' <= c <= 'Z' }

  predicate IsDigit(c: char) { '0' <= c <= '9' }

  predicate IsSchemeChar(c: char) {
    IsAsciiLetter(c) || IsDigit(c) || c == '+' || c == '-' || c == '.'
  }

  /** Scheme syntax of section 3.1 of RFC 3986: ALPHA *( ALPHA / DIGIT / "+" / "-" / "." ). */
  predicate IsRfc3986Scheme(s: string) {
    |s| > 0 && IsAsciiLetter(s[0]) && forall i :: 0 <= i < |s| ==> IsSchemeChar(s[i])
  }

  predicate IsUpper(c: char) { 'A' <= c <= 'Z' }

  function ToLower(c: char): char {
    if IsUpper(c) then (c as int + 32) as char else c
  }

  function Lower(s: string): (r: string)
    ensures |r| == |s|
  {
    seq(|s|, i requires 0 <= i < |s| => ToLower(s[i]))
  }

  /** Characters `urlsplit` strips from the front of a URL: C0 controls and space. */
  predicate IsC0OrSpace(c: char) { c <= ' ' }

  /** Characters `urlsplit` deletes anywhere in a URL. */
  predicate IsUnsafe(c: char) { c == '\t' || c == '\r' || c == '\n' }

  function StripLeadingC0(s: string): (r: string)
    ensures |r| <= |s| && r == s[|s| - |r|..]
    ensures r == [] || !IsC0OrSpace(r[0])
  {
    if s != [] && IsC0OrSpace(s[0]) then StripLeadingC0(s[1..]) else s
  }

  function RemoveUnsafe(s: string): (r: string)
    ensures forall i :: 0 <= i < |r| ==> !IsUnsafe(r[i])
    ensures forall c :: c in r ==> c in s
  {
    if s == [] then []
    else (if IsUnsafe(s[0]) then [] else [s[0]]) + RemoveUnsafe(s[1..])
  }

  /** Python's `s.find(c)`, with "not found" reported as `|s|`. */
  function IndexOf(s: string, c: char): (i: nat)
    ensures i <= |s|
    ensures i < |s| ==> s[i] == c
    ensures forall j :: 0 <= j < i ==> s[j] != c
  {
    if s == [] then 0 else if s[0] == c then 0 else 1 + IndexOf(s[1..], c)
  }

  predicate IsNetlocDelimiter(c: char) { c == '/' || c == '?' || c == '#' }

  /** The end of the network location: the first `/`, `?` or `#` at or after `start`. */
  function DelimiterFrom(s: string, start: nat): (i: nat)
    requires start <= |s|
    ensures start <= i <= |s|
    ensures i < |s| ==> IsNetlocDelimiter(s[i])
    ensures forall j :: start <= j < i ==> !IsNetlocDelimiter(s[j])
    decreases |s| - start
  {
    if start == |s| || IsNetlocDelimiter(s[start]) then start else DelimiterFrom(s, start + 1)
  }

  datatype SplitResult = SplitResult(scheme: string, netloc: string, path: string, query: string, fragment: string)

  /** The text `urlsplit` works on once leading controls and tabs/newlines are gone. */
  function Sanitize(url: string): string {
    RemoveUnsafe(StripLeadingC0(url))
  }

  /** The scheme is the text before the first `:` when that text starts with
      an ASCII letter and holds only scheme characters; it comes back
      lower-cased. Otherwise there is no scheme and nothing is consumed. */
  function SplitScheme(u: string): (r: (string, string))
    ensures r.0 == [] || IsRfc3986Scheme(r.0)
    ensures forall i :: 0 <= i < |r.0| ==> !IsUpper(r.0[i])
    ensures forall c :: c in r.1 ==> c in u
  {
    var i := IndexOf(u, ':');
    if 0 < i < |u| && IsAsciiLetter(u[0]) && forall j :: 0 <= j < i ==> IsSchemeChar(u[j]) then
      var scheme := Lower(u[..i]);
      assert forall j :: 0 <= j < i ==> scheme[j] == ToLower(u[j]);
      assert forall c :: c in u[i + 1..] ==> c in u;
      (scheme, u[i + 1..])
    else ("", u)
  }

  /** After `//`, the network location runs up to the first `/`, `?` or `#`. */
  function SplitNetloc(rest: string): (r: (string, string))
    ensures forall c :: c in r.0 ==> c in rest
    ensures forall c :: c in r.1 ==> c in rest
  {
    if |rest| >= 2 && rest[..2] == "//" then
      var delim := DelimiterFrom(rest, 2);
      assert forall c :: c in rest[2..delim] ==> c in rest;
      assert forall c :: c in rest[delim..] ==> c in rest;
      (rest[2..delim], rest[delim..])
    else ("", rest)
  }

  /** The fragment follows the first `#`; before it, the query follows the first `?`. */
  function SplitQuery(tail: string): (r: (string, string, string))
    ensures '#' !in r.1
    ensures '?' !in tail ==> r.1 == ""
  {
    var h := IndexOf(tail, '#');
    var fragment := if h < |tail| then tail[h + 1..] else "";
    var beforeFragment := tail[..h];
    var q := IndexOf(beforeFragment, '?');
    assert '?' !in tail ==> q == |beforeFragment|;
    var query := if q < |beforeFragment| then beforeFragment[q + 1..] else "";
    assert forall k :: 0 <= k < |query| ==> query[k] == beforeFragment[q + 1 + k];
    (beforeFragment[..q], query, fragment)
  }

  /** `urlsplit` without its error checks. */
  function SplitUrl(url: string): (r: SplitResult)
    ensures r.scheme == [] || IsRfc3986Scheme(r.scheme)
    ensures forall i :: 0 <= i < |r.scheme| ==> !IsUpper(r.scheme[i])
    ensures '#' !in r.query
  {
    var (scheme, rest) := SplitScheme(Sanitize(url));
    var (netloc, tail) := SplitNetloc(rest);
    var (path, query, fragment) := SplitQuery(tail);
    SplitResult(scheme, netloc, path, query, fragment)
  }

  function SchemeOf(url: string): string {
    SplitUrl(url).scheme
  }

  /** Why `urlsplit` refuses a URL: one square bracket without the other, or
      a bracketed host that is neither a valid IPvFuture literal (when it
      starts with `v`) nor an IPv6 address; a valid IPv4 address in brackets
      is refused with its own message. */
  datatype UrlError = InvalidIPv6Url | InvalidIPvFuture | BracketedIPv4 | NotAnIPAddress

  predicate BracketsBalanced(netloc: string) {
    '[' in netloc <==> ']' in netloc
  }

  /** `s.partition(c)[2]`: the text after the first `c`, or "" without one. */
  function AfterFirst(s: string, c: char): string {
    var i := IndexOf(s, c);
    if i < |s| then s[i + 1..] else ""
  }

  /** `s.partition(c)[0]`: the text before the first `c`, or all of `s`. */
  function BeforeFirst(s: string, c: char): string {
    s[..IndexOf(s, c)]
  }

  /** The host `urlsplit` checks: after the first `[`, up to the next `]`. */
  function BracketedHost(netloc: string): string {
    BeforeFirst(AfterFirst(netloc, '['), ']')
  }

  /** `_check_bracketed_host`, which `urlsplit` applies to a network location
      holding both brackets: None when the host is accepted. */
  function BracketedHostError(h: string): (e: Option<UrlError>)
    ensures e.None? <==> if h != [] && h[0] == 'v' then IsIPvFuture(h) else IsIPv6Address(h)
  {
    if h != [] && h[0] == 'v' then (if IsIPvFuture(h) then None else Some(InvalidIPvFuture))
    else if IsIPv4Address(h) then (IPv4IsNotIPv6(h); Some(BracketedIPv4))
    else if IsIPv6Address(h) then None
    else Some(NotAnIPAddress)
  }

  /** `urlparse`: the parts of `SplitUrl`, refused when the network location
      holds one square bracket without the other or a bracketed host that
      `_check_bracketed_host` rejects. */
  function UrlParse(url: string): (r: Result<SplitResult, UrlError>)
    ensures r.Success? <==>
      && BracketsBalanced(SplitUrl(url).netloc)
      && ('[' in SplitUrl(url).netloc ==> BracketedHostError(BracketedHost(SplitUrl(url).netloc)).None?)
    ensures !BracketsBalanced(SplitUrl(url).netloc) ==> r == Failure(InvalidIPv6Url)
    ensures r.Success? ==> r.value.scheme == SchemeOf(url)
  {
    var parts := SplitUrl(url);
    if !BracketsBalanced(parts.netloc) then Failure(InvalidIPv6Url)
    else if '[' in parts.netloc && BracketedHostError(BracketedHost(parts.netloc)).Some? then
      Failure(BracketedHostError(BracketedHost(parts.netloc)).value)
    else Success(parts)
  }

  // ---------------------------------------------------------------------------
  // IP literals, as Python's `ipaddress` reads them

  /** The regular expression `\Av[a-fA-F0-9]+\..+\Z`: `v`, a run of hex
      digits, a dot, then at least one character other than a newline. */
  predicate IsIPvFuture(h: string) {
    var dot := IndexOf(h, '.');
    && |h| >= 1 && h[0] == 'v'
    && 2 <= dot < |h| - 1
    && (forall i :: 1 <= i < dot ==> IsHexDigit(h[i]))
    && (forall i :: dot < i < |h| ==> h[i] != '\n')
  }

  /** The value of a run of decimal digits. */
  function DecimalValue(s: string): nat
    requires forall i :: 0 <= i < |s| ==> IsDigit(s[i])
  {
    if s == [] then 0
    else
      assert IsDigit(s[|s| - 1]);
      10 * DecimalValue(s[..|s| - 1]) + (s[|s| - 1] as int - '0' as int)
  }

  /** An octet of `IPv4Address`: one to three ASCII digits, no leading zero,
      at most 255. */
  predicate IsOctet(s: string) {
    && 1 <= |s| <= 3
    && (forall i :: 0 <= i < |s| ==> IsDigit(s[i]))
    && (s[0] == '0' ==> |s| == 1)
    && DecimalValue(s) <= 255
  }

  /** A string `ipaddress.IPv4Address` accepts: four octets joined by dots. */
  predicate IsIPv4Address(s: string) {
    var octets := SplitOn(s, '.');
    |octets| == 4 && forall i :: 0 <= i < 4 ==> IsOctet(octets[i])
  }

  /** A hextet of `IPv6Address`: one to four ASCII hex digits. */
  predicate IsHextet(s: string) {
    1 <= |s| <= 4 && forall i :: 0 <= i < |s| ==> IsHexDigit(s[i])
  }

  /** The first empty part at or after `i` and before the last part, or the
      index of the last part when there is none. */
  function EmptyFrom(parts: seq<string>, i: nat): (k: nat)
    requires 1 <= i <= |parts| - 1
    ensures i <= k <= |parts| - 1
    ensures k < |parts| - 1 ==> parts[k] == ""
    ensures forall j :: i <= j < k ==> parts[j] != ""
    decreases |parts| - i
  {
    if i == |parts| - 1 || parts[i] == "" then i else EmptyFrom(parts, i + 1)
  }

  /** The colon-separated parts `IPv6Address` accepts once an IPv4 suffix has
      become two hextets: at most nine parts; either eight hextets, or
      exactly one `::` between the ends, an empty first or last part only as
      half of that `::`, the parts on either side hextets, and at least one
      hextet left for the `::` to stand for. */
  predicate IsHextetLayout(parts: seq<string>) {
    && 3 <= |parts| <= 9
    && var last := |parts| - 1;
       var k := EmptyFrom(parts, 1);
       if k == last then
         |parts| == 8 && forall i :: 0 <= i < |parts| ==> IsHextet(parts[i])
       else
         && EmptyFrom(parts, k + 1) == last
         && (parts[0] == "" ==> k == 1)
         && (parts[last] == "" ==> k == last - 1)
         && var hi := if parts[0] == "" then 0 else k;
            var lo := if parts[last] == "" then 0 else last - k;
            && hi + lo <= 7
            && (forall i :: 0 <= i < hi ==> IsHextet(parts[i]))
            && (forall i :: last - lo < i <= last ==> IsHextet(parts[i]))
  }

  /** The address part of an IPv6 string: at least three colon-separated
      parts, the last of which may be a dotted IPv4 address standing for two
      hextets (their digits do not matter here, only that there are two). */
  predicate IsIPv6Body(addr: string) {
    var parts := SplitOn(addr, ':');
    var last := parts[|parts| - 1];
    && |parts| >= 3
    && ('.' in last ==> IsIPv4Address(last))
    && IsHextetLayout(if '.' in last then parts[..|parts| - 1] + ["0", "0"] else parts)
  }

  /** A string `ipaddress.IPv6Address` accepts: no `/`, and an address part
      followed by an optional `%` zone that is non-empty and has no `%`. */
  predicate IsIPv6Address(s: string) {
    var p := IndexOf(s, '%');
    && '/' !in s
    && (p < |s| ==> s[p + 1..] != "" && '%' !in s[p + 1..])
    && IsIPv6Body(s[..p])
  }

  /** A string without a colon splits into itself alone. */
  lemma SplitWithout(s: string, sep: char)
    requires sep !in s
    ensures SplitOn(s, sep) == [s]
  {
    assert IndexOf(s, sep) == |s|;
  }

  /** An IPv4 address has no colon, so it is never an IPv6 address: the
      order in which `ip_address` tries the two does not matter. */
  lemma IPv4IsNotIPv6(h: string)
    requires IsIPv4Address(h)
    ensures !IsIPv6Address(h)
  {
    var octets := SplitOn(h, '.');
    forall c | c in h ensures c != ':' {
      JoinChars(octets, '.', c);
      if c != '.' {
        var i :| 0 <= i < |octets| && c in octets[i];
        assert IsOctet(octets[i]);
        var j :| 0 <= j < |octets[i]| && octets[i][j] == c;
        assert IsDigit(octets[i][j]);
      }
    }
    var p := IndexOf(h, '%');
    forall i | 0 <= i < p ensures h[..p][i] != ':' {
      assert h[..p][i] == h[i] && h[i] in h;
    }
    SplitWithout(h[..p], ':');
  }

  /** A character of a joined string is the separator or a character of a part. */
  lemma {:induction false} JoinChars(parts: seq<string>, sep: char, c: char)
    requires |parts| >= 1 && c in Join(parts, sep)
    ensures c == sep || exists i :: 0 <= i < |parts| && c in parts[i]
    decreases |parts|
  {
    if |parts| > 1 {
      if c !in parts[0] && c != sep {
        JoinChars(parts[1..], sep, c);
        var i :| 0 <= i < |parts[1..]| && c in parts[1..][i];
        assert c in parts[i + 1];
      }
    }
  }

  /** A bracketed host without a colon that does not start with `v`, such as
      a bucket name, is rejected. */
  lemma ColonlessHostRejected(h: string)
    requires ':' !in h && (h == [] || h[0] != 'v')
    ensures BracketedHostError(h).Some?
  {
    var p := IndexOf(h, '%');
    forall i | 0 <= i < p ensures h[..p][i] != ':' {
      assert h[..p][i] == h[i] && h[i] in h;
    }
    SplitWithout(h[..p], ':');
  }

  /** A string with nothing to delete passes `RemoveUnsafe` unchanged. */
  lemma {:induction false} RemoveUnsafeNothing(s: string)
    requires forall i :: 0 <= i < |s| ==> !IsUnsafe(s[i])
    ensures RemoveUnsafe(s) == s
    decreases |s|
  {
    if s != [] {
      assert forall i :: 0 <= i < |s| - 1 ==> s[1..][i] == s[i + 1];
      RemoveUnsafeNothing(s[1..]);
      assert [s[0]] + s[1..] == s;
    }
  }

  /** The host inside a pair of brackets is what `urlsplit` checks. */
  lemma BracketedHostOf(h: string)
    requires '[' !in h && ']' !in h
    ensures BracketedHost("[" + h + "]") == h
  {
    var n := "[" + h + "]";
    assert IndexOf(n, '[') == 0;
    var after := n[1..];
    assert after == h + "]";
    assert after[|h|] == ']';
    assert forall j :: 0 <= j < |h| ==> after[j] == h[j];
    var i := IndexOf(after, ']');
    assert i == |h|;
  }

  /** A URL whose network location is a bracketed name without a colon that
      does not start with `v`, as in `s3://[bucket]/x`, is refused. */
  lemma BracketedNameRejected(url: string, h: string)
    requires SplitUrl(url).netloc == "[" + h + "]"
    requires ':' !in h && '[' !in h && ']' !in h && (h == [] || h[0] != 'v')
    ensures UrlParse(url).Failure?
  {
    BracketedHostOf(h);
    ColonlessHostRejected(h);
    assert '[' in SplitUrl(url).netloc && ']' in SplitUrl(url).netloc by {
      assert SplitUrl(url).netloc[0] == '[' && SplitUrl(url).netloc[|h| + 1] == ']';
    }
  }

  /** `::x` splits on colons into two empty parts and `x`. */
  lemma CompressedParts(x: string)
    requires ':' !in x
    ensures SplitOn("::" + x, ':') == ["", "", x]
  {
    var h := "::" + x;
    assert h[1..] == ":" + x && h[1..][1..] == x;
    SplitWithout(x, ':');
    assert IndexOf(h[1..], ':') == 0;
    assert IndexOf(h, ':') == 0;
  }

  /** `::x`, all but the last hextet elided, is an IPv6 address. */
  lemma CompressedAddress(x: string)
    requires IsHextet(x)
    ensures IsIPv6Address("::" + x)
  {
    var h := "::" + x;
    assert forall i :: 0 <= i < |h| ==> h[i] == ':' || IsHexDigit(h[i]) by {
      assert forall i :: 2 <= i < |h| ==> h[i] == x[i - 2];
    }
    assert ':' !in x by {
      assert forall i :: 0 <= i < |x| ==> IsHexDigit(x[i]);
    }
    assert IndexOf(h, '%') == |h|;
    assert h[..|h|] == h;
    CompressedParts(x);
    var parts := ["", "", x];
    assert EmptyFrom(parts, 1) == 1;
    assert EmptyFrom(parts, 2) == 2;
    assert IsHextetLayout(parts);
  }

  /** `::1`, the loopback address, is accepted in brackets. */
  lemma LoopbackHostAccepted()
    ensures BracketedHostError("::1").None?
  {
    assert IsHextet("1");
    CompressedAddress("1");
    assert "::" + "1" == "::1";
    if IsIPv4Address("::1") {
      IPv4IsNotIPv6("::1");
    }
  }

  // ---------------------------------------------------------------------------
  // Query strings

  /** Python's `s.split(sep)`. */
  function SplitOn(s: string, sep: char): (parts: seq<string>)
    ensures |parts| >= 1
    ensures forall i :: 0 <= i < |parts| ==> sep !in parts[i]
    ensures Join(parts, sep) == s
    decreases |s|
  {
    var i := IndexOf(s, sep);
    if i == |s| then [s]
    else
      var rest := SplitOn(s[i + 1..], sep);
      assert Join([s[..i]] + rest, sep) == s[..i] + [sep] + Join(rest, sep);
      assert s == s[..i] + [sep] + s[i + 1..];
      [s[..i]] + rest
  }

  /** Python's `sep.join(parts)`. */
  function Join(parts: seq<string>, sep: char): string
    requires |parts| >= 1
  {
    if |parts| == 1 then parts[0] else parts[0] + [sep] + Join(parts[1..], sep)
  }

  predicate IsHexDigit(c: char) { IsDigit(c) || 'a' <= c <= 'f' || 'A' <= c <= 'F' }

  function HexValue(c: char): (v: nat)
    requires IsHexDigit(c)
    ensures v < 16
  {
    if IsDigit(c) then c as int - '0' as int
    else if 'a' <= c <= 'f' then c as int - 'a' as int + 10
    else c as int - 'A' as int + 10
  }

  /** `%XX` that names a byte below 0x80, which `unquote` turns into that ASCII character. */
  predicate IsAsciiEscape(s: string) {
    |s| >= 3 && s[0] == '%' && IsHexDigit(s[1]) && IsHexDigit(s[2]) && HexValue(s[1]) < 8
  }

  /** `urllib.parse.unquote` for escapes of ASCII bytes; any other `%` is kept. */
  function Unquote(s: string): (r: string)
    ensures |r| <= |s|
    ensures s != [] ==> r != []
  {
    if s == [] then []
    else if IsAsciiEscape(s) then [(HexValue(s[1]) * 16 + HexValue(s[2])) as char] + Unquote(s[3..])
    else [s[0]] + Unquote(s[1..])
  }

  function PlusToSpace(s: string): (r: string)
    ensures |r| == |s|
  {
    seq(|s|, i requires 0 <= i < |s| => if s[i] == '+' then ' ' else s[i])
  }

  /** One `name=value` field of `parse_qsl` with `keep_blank_values=False`:
      an empty field, a field without `=`, and a field with an empty value
      are all dropped. */
  function FieldPair(field: string): Option<(string, string)> {
    var e := IndexOf(field, '=');
    if field == "" || e == |field| || field[e + 1..] == "" then None
    else Some((Unquote(PlusToSpace(field[..e])), Unquote(PlusToSpace(field[e + 1..]))))
  }

  function PairsOf(fields: seq<string>): (ps: seq<(string, string)>)
    ensures forall i :: 0 <= i < |ps| ==> ps[i].1 != ""
  {
    if fields == [] then []
    else
      (match FieldPair(fields[0]) case None => [] case Some(p) => [p]) + PairsOf(fields[1..])
  }

  /** `parse_qsl(qs)`: the decoded pairs in the order they appear. */
  function ParseQsl(qs: string): (ps: seq<(string, string)>)
    ensures forall i :: 0 <= i < |ps| ==> ps[i].1 != ""
  {
    if qs == "" then [] else PairsOf(SplitOn(qs, '&'))
  }

  /** `parse_qs`: every key with the list of its values, in order. */
  function Group(ps: seq<(string, string)>): (m: map<string, seq<string>>)
    ensures forall k :: k in m ==> m[k] != []
    decreases |ps|
  {
    if ps == [] then map[]
    else
      var m := Group(ps[..|ps| - 1]);
      var k := ps[|ps| - 1].0;
      m[k := (if k in m then m[k] else []) + [ps[|ps| - 1].1]]
  }

  /** Reference definition: the values of `k`, in order of appearance. */
  function ValuesOf(ps: seq<(string, string)>, k: string): seq<string> {
    if ps == [] then []
    else (if ps[0].0 == k then [ps[0].1] else []) + ValuesOf(ps[1..], k)
  }

  lemma {:induction false} ValuesOfAppend(ps: seq<(string, string)>, p: (string, string), k: string)
    ensures ValuesOf(ps + [p], k) == ValuesOf(ps, k) + (if p.0 == k then [p.1] else [])
    decreases |ps|
  {
    if ps != [] {
      assert (ps + [p])[1..] == ps[1..] + [p];
      ValuesOfAppend(ps[1..], p, k);
    }
  }

  /** `parse_qs` keeps, for each key, exactly the values of that key in order. */
  lemma {:induction false} GroupCollectsValues(ps: seq<(string, string)>, k: string)
    ensures k in Group(ps) <==> ValuesOf(ps, k) != []
    ensures k in Group(ps) ==> Group(ps)[k] == ValuesOf(ps, k)
    decreases |ps|
  {
    if ps != [] {
      var init := ps[..|ps| - 1];
      assert ps == init + [ps[|ps| - 1]];
      GroupCollectsValues(init, k);
      ValuesOfAppend(init, ps[|ps| - 1], k);
    }
  }

  /** The first value of `k` is the value of the first pair with key `k`. */
  lemma {:induction false} ValuesOfFirst(ps: seq<(string, string)>, i: nat)
    requires i < |ps|
    requires forall j :: 0 <= j < i ==> ps[j].0 != ps[i].0
    ensures ValuesOf(ps, ps[i].0) != [] && ValuesOf(ps, ps[i].0)[0] == ps[i].1
  {
    if i > 0 {
      ValuesOfFirst(ps[1..], i - 1);
    }
  }

  lemma {:induction false} ValuesOfEmpty(ps: seq<(string, string)>, k: string)
    requires ValuesOf(ps, k) == []
    ensures forall j :: 0 <= j < |ps| ==> ps[j].0 != k
  {
    if ps != [] {
      ValuesOfEmpty(ps[1..], k);
      forall j | 1 <= j < |ps| ensures ps[j].0 != k {
        assert ps[j] == ps[1..][j - 1];
      }
    }
  }

  /** `{key: val[0] for key, val in parse_qs(q).items()}`. */
  function FirstValues(ps: seq<(string, string)>): map<string, string> {
    var g := Group(ps);
    map k | k in g :: g[k][0]
  }

  /** Repeated keys keep their first value; every key present in the pairs is kept. */
  lemma FirstValueWins(ps: seq<(string, string)>, i: nat)
    requires i < |ps|
    requires forall j :: 0 <= j < i ==> ps[j].0 != ps[i].0
    ensures ps[i].0 in FirstValues(ps) && FirstValues(ps)[ps[i].0] == ps[i].1
  {
    GroupCollectsValues(ps, ps[i].0);
    ValuesOfFirst(ps, i);
  }

  /** A key is an option exactly when some pair carries it. */
  lemma FirstValuesKeys(ps: seq<(string, string)>, k: string)
    ensures k in FirstValues(ps) <==> exists j :: 0 <= j < |ps| && ps[j].0 == k
  {
    GroupCollectsValues(ps, k);
    if ValuesOf(ps, k) == [] {
      ValuesOfEmpty(ps, k);
    } else {
      var j := FirstIndexOf(ps, k);
      ValuesOfFirst(ps, j);
    }
  }

  function FirstIndexOf(ps: seq<(string, string)>, k: string): (j: nat)
    requires ValuesOf(ps, k) != []
    ensures j < |ps| && ps[j].0 == k
    ensures forall i :: 0 <= i < j ==> ps[i].0 != k
  {
    if ps[0].0 == k then 0 else 1 + FirstIndexOf(ps[1..], k)
  }

  /** The options `DAL.from_url` reads out of a URL's query. */
  function QueryOptions(url: string): (opts: map<string, string>)
    ensures forall k :: k in opts ==> opts[k] != ""
  {
    var ps := ParseQsl(SplitUrl(url).query);
    var g := Group(ps);
    forall k | k in g ensures g[k][0] != "" {
      GroupCollectsValues(ps, k);
      var j := FirstIndexOf(ps, k);
      ValuesOfFirst(ps, j);
    }
    FirstValues(ps)
  }

  /** A URL without `?` has an empty query and so no options. */
  lemma NoQueryNoOptions(url: string)
    requires '?' !in url
    ensures SplitUrl(url).query == ""
    ensures QueryOptions(url) == map[]
  {
    StripKeepsChars(url);
    var rest := SplitScheme(Sanitize(url)).1;
    var tail := SplitNetloc(rest).1;
    assert '?' !in tail;
    assert SplitUrl(url).query == "";
    assert Group([]) == map[];
  }

  // ---------------------------------------------------------------------------
  // What `urlsplit` and `parse_qsl` return for well-formed input

  /** A string without upper-case letters is its own lower-case form. */
  lemma LowerNoUpper(s: string)
    requires forall i :: 0 <= i < |s| ==> !IsUpper(s[i])
    ensures Lower(s) == s
  {
  }

  /** A URL that starts with a scheme and `:`, with no tab or newline after
      it, has that scheme, lower-cased; the text after the colon is what the
      rest of `urlsplit` works on. */
  lemma SchemePrefix(sc: string, rest: string)
    requires IsRfc3986Scheme(sc)
    requires forall i :: 0 <= i < |rest| ==> !IsUnsafe(rest[i])
    ensures SplitScheme(Sanitize(sc + ":" + rest)) == (Lower(sc), rest)
    ensures SchemeOf(sc + ":" + rest) == Lower(sc)
  {
    var u := sc + ":" + rest;
    assert u[0] == sc[0];
    assert StripLeadingC0(u) == u;
    forall i | 0 <= i < |u| ensures !IsUnsafe(u[i]) && (i < |sc| ==> IsSchemeChar(u[i])) {
      if i < |sc| {
        assert u[i] == sc[i] && IsSchemeChar(sc[i]);
      } else if i > |sc| {
        assert u[i] == rest[i - |sc| - 1];
      }
    }
    RemoveUnsafeNothing(u);
    assert u[|sc|] == ':';
    assert IndexOf(u, ':') == |sc|;
    assert u[..|sc|] == sc && u[|sc| + 1..] == rest;
  }

  /** Whatever the network location takes, the query is the text after the
      first `?` of a URL without `#`. */
  lemma QueryAfterMark(rest: string, pre: string, q: string)
    requires rest == pre + "?" + q && '?' !in pre && '#' !in rest
    ensures SplitQuery(SplitNetloc(rest).1).1 == q
  {
    assert rest[|pre|] == '?';
    var d := if |rest| >= 2 && rest[..2] == "//" then DelimiterFrom(rest, 2) else 0;
    if |rest| >= 2 && rest[..2] == "//" {
      assert rest[0] == '/' && rest[1] == '/';
      assert |pre| >= 2;
      assert IsNetlocDelimiter(rest[|pre|]);
    }
    assert d <= |pre|;
    var tail := SplitNetloc(rest).1;
    assert tail == rest[d..];
    assert tail == pre[d..] + "?" + q;
    assert '#' !in tail;
    assert IndexOf(tail, '#') == |tail|;
    assert tail[..|tail|] == tail;
    assert forall j :: 0 <= j < |pre| - d ==> tail[j] == pre[d + j] && pre[d + j] in pre;
    assert IndexOf(tail, '?') == |pre| - d;
    assert tail[|pre| - d + 1..] == q;
  }

  /** The parts of a URL `sc:pre?q` with no tab, newline or `#`: its scheme
      is `sc` lower-cased and its query is `q`. */
  lemma SchemeAndQuery(sc: string, pre: string, q: string)
    requires IsRfc3986Scheme(sc) && '?' !in pre
    requires forall c :: c in pre + "?" + q ==> !IsUnsafe(c) && c != '#'
    ensures SplitUrl(sc + ":" + (pre + "?" + q)).scheme == Lower(sc)
    ensures SplitUrl(sc + ":" + (pre + "?" + q)).query == q
  {
    var rest := pre + "?" + q;
    forall i | 0 <= i < |rest| ensures !IsUnsafe(rest[i]) {
      assert rest[i] in rest;
    }
    SchemePrefix(sc, rest);
    QueryAfterMark(rest, pre, q);
  }

  /** A URL without square brackets is always accepted by `urlparse`. */
  lemma NoBracketsParses(url: string)
    requires '[' !in url && ']' !in url
    ensures UrlParse(url).Success?
  {
    StripKeepsChars(url);
    var rest := SplitScheme(Sanitize(url)).1;
    assert '[' !in SplitNetloc(rest).0 && ']' !in SplitNetloc(rest).0;
  }

  /** A query field that needs no decoding: non-empty, without `&`, `=`,
      `%` or `+`. */
  predicate IsPlainField(s: string) {
    s != "" && '&' !in s && '=' !in s && '%' !in s && '+' !in s
  }

  predicate PlainPairs(ps: seq<(string, string)>) {
    forall i :: 0 <= i < |ps| ==> IsPlainField(ps[i].0) && IsPlainField(ps[i].1)
  }

  /** The `name=value` fields of a list of pairs. */
  function FieldsOf(ps: seq<(string, string)>): (fs: seq<string>)
    ensures |fs| == |ps|
  {
    seq(|ps|, i requires 0 <= i < |ps| => ps[i].0 + "=" + ps[i].1)
  }

  /** The query string `urlencode` writes for pairs that need no escaping. */
  function EncodeQuery(ps: seq<(string, string)>): string {
    if ps == [] then "" else Join(FieldsOf(ps), '&')
  }

  lemma {:induction false} UnquoteNoPercent(s: string)
    requires '%' !in s
    ensures Unquote(s) == s
    decreases |s|
  {
    if s != [] {
      assert s[0] != '%';
      assert '%' !in s[1..] by {
        forall i | 0 <= i < |s| - 1 ensures s[1..][i] != '%' {
          assert s[1..][i] == s[i + 1] && s[i + 1] in s;
        }
      }
      UnquoteNoPercent(s[1..]);
      assert [s[0]] + s[1..] == s;
    }
  }

  /** A plain `name=value` field decodes to its name and value. */
  lemma FieldPairPlain(k: string, v: string)
    requires IsPlainField(k) && IsPlainField(v)
    ensures FieldPair(k + "=" + v) == Some((k, v))
  {
    var f := k + "=" + v;
    assert forall j :: 0 <= j < |k| ==> f[j] == k[j] && k[j] in k;
    assert f[|k|] == '=';
    assert IndexOf(f, '=') == |k|;
    assert f[..|k|] == k && f[|k| + 1..] == v;
    assert PlusToSpace(k) == k && PlusToSpace(v) == v;
    UnquoteNoPercent(k);
    UnquoteNoPercent(v);
  }

  /** Splitting what was joined gives the parts back, when no part holds the
      separator: the other half of the round trip `SplitOn` states. */
  lemma {:induction false} SplitJoin(parts: seq<string>, sep: char)
    requires |parts| >= 1 && forall i :: 0 <= i < |parts| ==> sep !in parts[i]
    ensures SplitOn(Join(parts, sep), sep) == parts
    decreases |parts|
  {
    if |parts| == 1 {
      SplitWithout(parts[0], sep);
    } else {
      var p := parts[0];
      var rest := Join(parts[1..], sep);
      var s := Join(parts, sep);
      assert s == p + [sep] + rest;
      assert sep !in p;
      forall j | 0 <= j < |p| ensures s[j] != sep {
        assert s[j] == p[j] && p[j] in p;
      }
      assert s[|p|] == sep;
      assert IndexOf(s, sep) == |p|;
      assert s[..|p|] == p && s[|p| + 1..] == rest;
      SplitJoin(parts[1..], sep);
      assert [p] + parts[1..] == parts;
    }
  }

  lemma {:induction false} PairsOfFields(ps: seq<(string, string)>)
    requires PlainPairs(ps)
    ensures PairsOf(FieldsOf(ps)) == ps
    decreases |ps|
  {
    if ps != [] {
      FieldPairPlain(ps[0].0, ps[0].1);
      assert FieldsOf(ps)[1..] == FieldsOf(ps[1..]);
      PairsOfFields(ps[1..]);
      assert [ps[0]] + ps[1..] == ps;
    }
  }

  /** `parse_qsl` reads back the pairs of a plain query string, in order. */
  lemma ParseQslRoundTrip(ps: seq<(string, string)>)
    requires PlainPairs(ps)
    ensures ParseQsl(EncodeQuery(ps)) == ps
  {
    if ps != [] {
      var fs := FieldsOf(ps);
      forall i | 0 <= i < |fs| ensures '&' !in fs[i] {
        var f := fs[i];
        assert f == ps[i].0 + "=" + ps[i].1;
        forall c | c in f ensures c != '&' {
          assert c in ps[i].0 || c == '=' || c in ps[i].1;
        }
      }
      var q := Join(fs, '&');
      assert |fs| > 1 ==> q == fs[0] + ['&'] + Join(fs[1..], '&');
      assert q != "" by {
        assert |fs[0]| > 0;
      }
      SplitJoin(fs, '&');
      PairsOfFields(ps);
    }
  }

  /** The options of a URL `sc:pre?q` whose query is plain pairs are the
      first value of each of their names. */
  lemma PlainQueryOptions(sc: string, pre: string, ps: seq<(string, string)>)
    requires IsRfc3986Scheme(sc) && '?' !in pre && PlainPairs(ps)
    requires forall c :: c in pre + "?" + EncodeQuery(ps) ==> !IsUnsafe(c) && c != '#'
    ensures QueryOptions(sc + ":" + (pre + "?" + EncodeQuery(ps))) == FirstValues(ps)
  {
    SchemeAndQuery(sc, pre, EncodeQuery(ps));
    ParseQslRoundTrip(ps);
  }

  /** The two pairs of the query `param1=value1&param2=value2`. */
  function SamplePairs(): seq<(string, string)> {
    [("param1", "value1"), ("param2", "value2")]
  }

  lemma SampleFields()
    ensures "param1" + "=" + "value1" == "param1=value1"
    ensures "param2" + "=" + "value2" == "param2=value2"
    ensures "param1=value1" + "&" + "param2=value2" == "param1=value1&param2=value2"
  {
  }

  lemma SamplePlain()
    ensures PlainPairs(SamplePairs())
  {
  }

  lemma SampleQuery()
    ensures EncodeQuery(SamplePairs()) == "param1=value1&param2=value2"
  {
    var ps := SamplePairs();
    var fs := FieldsOf(ps);
    SampleFields();
    assert fs[0] == "param1=value1" && fs[1] == "param2=value2";
    assert fs[1..] == ["param2=value2"];
    assert Join(fs, '&') == fs[0] + "&" + fs[1];
  }

  lemma SampleOptions()
    ensures FirstValues(SamplePairs()) == map["param1" := "value1", "param2" := "value2"]
  {
    var ps := SamplePairs();
    FirstValueWins(ps, 0);
    FirstValueWins(ps, 1);
    forall k | k in FirstValues(ps) ensures k == "param1" || k == "param2" {
      FirstValuesKeys(ps, k);
    }
  }

  lemma SampleUrlPieces()
    ensures "///" + "?" + "param1=value1&param2=value2" == "///?param1=value1&param2=value2"
  {
  }

  lemma SampleUrlJoined()
    ensures "memory" + ":" + "///?param1=value1&param2=value2" == "memory:///?param1=value1&param2=value2"
  {
  }

  lemma SampleUrlChars()
    ensures forall c :: c in "///?param1=value1&param2=value2" ==> !IsUnsafe(c) && c != '#'
  {
  }

  lemma SampleUrlNoBrackets()
    ensures '[' !in "memory:///?param1=value1&param2=value2" && ']' !in "memory:///?param1=value1&param2=value2"
  {
  }

  lemma MemoryScheme()
    ensures IsRfc3986Scheme("memory") && Lower("memory") == "memory"
  {
    LowerNoUpper("memory");
  }

  /** `memory:///?param1=value1&param2=value2` parses, has the scheme
      `memory`, and yields the options `param1 = value1` and
      `param2 = value2`. */
  lemma MemoryUrlWithQuery(url: string)
    requires url == "memory:///?param1=value1&param2=value2"
    ensures UrlParse(url).Success?
    ensures SchemeOf(url) == "memory"
    ensures QueryOptions(url) == map["param1" := "value1", "param2" := "value2"]
  {
    SampleUrlPieces();
    SampleUrlJoined();
    SampleUrlChars();
    SampleUrlNoBrackets();
    MemoryScheme();
    SamplePlain();
    SampleQuery();
    SampleOptions();
    SchemeAndQuery("memory", "///", EncodeQuery(SamplePairs()));
    PlainQueryOptions("memory", "///", SamplePairs());
    NoBracketsParses(url);
  }

  lemma StripKeepsChars(s: string)
    ensures forall c :: c in StripLeadingC0(s) ==> c in s
  {
    var r := StripLeadingC0(s);
    var off := |s| - |r|;
    assert r == s[off..];
    forall c | c in r ensures c in s {
      var k :| 0 <= k < |r| && r[k] == c;
      assert s[off + k] == c;
    }
  }
}

=== FILE: wrappers.dfy ===
/** Optional values and success-or-error results, standing for Python's
    `None` and for the exceptions the modelled code raises. */
module Wrappers {

  datatype Option<+T> = None | Some(value: T)

  datatype Result<+T, +E> = Success(value: T) | Failure(error: E)
}
